=== FILE: README.md ===
# Aztec node provisioning helpers, modelled in Dafny

This project models two small Python tools that the Aztec node provisioning
scripts use, and proves properties of them.

**The CSV-to-inventory converter** (`aztec_ansible/common/csv_to_inventory.py`)
reads a CSV of servers and writes an Ansible inventory.

- The CSV reader gives every record as a dictionary. A header name that
  occurs twice keeps the place of its first column and takes the cell of its
  last column.
- Every record is normalised. The dictionary's names are trimmed and
  upper-cased. Values are trimmed, and a missing cell becomes empty. The
  items are stored in dictionary order, so a later item overwrites an
  earlier one with the same normalised name. For the header `ip,IP,ip` with
  cells `a,b,c`, the IP is therefore `b`.
- Three canonical fields are resolved through fixed alias chains:
  - IP: `IP`, `IP_ADDRESS`, `SERVER_IP`, `HOST`;
  - address: `ADDRESS`, `ETH_ADDRESS`, `ETHEREUM_ADDRESS`, `WALLET_ADDRESS`;
  - private key: `PRIVATE_KEY`, `PRIV_KEY`, `KEY`.

  An alias that is present but empty falls through like an absent one.
- A row without an IP is refused with the message `Row N: IP address is missing`.
  N counts the records from 2: the first record after the header is 2, the
  next is 3, and so on. N is not the line in the file, since the reader
  skips blank lines and a quoted cell can span lines.
- The batch loop keeps the accepted records in order. An empty result is an
  error.
- The inventory is the group header `[aztec_nodes]`, then one line per
  server. The line of the i-th server is named `node<i>`. Its address and
  private key are written as base64 of their UTF-8 octets.
- The variables file is a fixed text.

**The proof extractor** (`aztec_ansible/get_proof_playbook/parse_proof.py`)
reads the output of `GetProof.sh` and reports four fields: the block number,
the proof, a status and an error.

- The block number comes from the first match of `Номер блока:\s*(\d+)`.
- The proof comes from the first match of `Proof:\s*(.+)`, where `.` also
  matches a newline. It is trimmed, and then all of its whitespace is deleted.
- The status is `SUCCESS` when both fields were found. Otherwise it is `ERROR`,
  with a message that names the block number and says whether the proof was
  found.

Modules:

- `Wrappers`: `Option` and `Result`.
- `Strings`: Python's whitespace, `str.strip()`, upper-casing, decimal numerals,
  `split` and `join`, and the deletion of whitespace.
- `Utf8`: UTF-8 as in RFC 3629, with a decoder.
- `Base64`: the base64 encoding of section 4 of RFC 4648, with a decoder. The
  decoder is strict about padding: groups of four, and `=` only at the end of
  the last group. It ignores the unused bits of a padded group.
- `CsvToInventory`: the converter. It also has a reader of the inventory text,
  which serves as the partner of the renderer.
- `ParseProof`: the extractor. Each regular-expression search is modelled as a
  scan for the leftmost start position where the pattern matches.

Every operation has an independent partner, and a lemma relates the two:

- The inventory renderer has a reader. The inventory reads back as the
  accepted servers when no IP holds a blank or a newline.
- Base64 and UTF-8 each have a decoder, and every encoding decodes back to its
  input.
- Upper-casing of header names has a letter-by-letter relation, "equal up to
  the case of ASCII letters", and two names meet on one key exactly when they
  are so related.
- The working dictionary of a record has a declarative description in terms
  of the header's names and cells.
- The batch loop has an index-based filter-map: the servers are exactly the
  records with an IP, in order.
- The extractor has declarative predicates for "an occurrence of the pattern at
  p". The field it reports is proved to come from the leftmost occurrence, and
  every leftmost occurrence is proved to be what it reports.

## Model

| member | source | states |
|---|---|---|
| CsvToInventory.ReaderDict | aztec_ansible/common/csv_to_inventory.py:137 | The reader's dictionary of a record never has more items than the record has cells. Its keys, values, order and distinct keys are stated by `ReaderDictKeys`, `ReaderDictValues`, `ReaderDictOrder` and `ReaderDictDistinct`. |
| CsvToInventory.Store | aztec_ansible/common/csv_to_inventory.py:137 | Assigning to a dictionary adds one item exactly when the key is new, and the stored pair is then an item. |
| CsvToInventory.StoreKeys | aztec_ansible/common/csv_to_inventory.py:137 | After an assignment the keys are the old keys and the assigned key. |
| CsvToInventory.ReaderDictKeys | aztec_ansible/common/csv_to_inventory.py:137 | The reader's dictionary of a record has exactly the header's names as keys. |
| CsvToInventory.ReaderDictDistinct | aztec_ansible/common/csv_to_inventory.py:137 | No name occurs twice among the items of the reader's dictionary. |
| CsvToInventory.ReaderDictValues | aztec_ansible/common/csv_to_inventory.py:137 | Under each header name the reader's dictionary holds the cell of the name's last column, so a repeated name takes its last cell. |
| CsvToInventory.ReaderDictOrder | aztec_ansible/common/csv_to_inventory.py:30 | `row.items()` lists the names in the order of their first columns. |
| CsvToInventory.NormalizeSpec | aztec_ansible/common/csv_to_inventory.py:29-32 | The working dictionary of a record has as keys exactly the trimmed, upper-cased header names. Under such a name is the trimmed cell of one raw name's last column, or empty for a missing cell. The raw name is the one first seen latest among those with that normalised form. |
| CsvToInventory.RepeatedHeaderName | aztec_ansible/common/csv_to_inventory.py:29-35 | For the header `ip,IP,ip` with cells `a,b,c`, the working dictionary's `IP` is `b`: neither the first cell nor the last one. |
| CsvToInventory.BuildMap | aztec_ansible/common/csv_to_inventory.py:29-32 | The working dictionary has as keys exactly the normalised names of the items it is given, and no other key. A name maps to the value of the last given item that carries it, in the order of the reader's dictionary, not of the CSV columns (see `NormalizeSpec`). |
| CsvToInventory.Normalize | aztec_ansible/common/csv_to_inventory.py:29-32 | The working dictionary of a record, built by the item loop. Its keys and values are stated by `NormalizeSpec`, and a repeated header by `RepeatedHeaderName`. |
| CsvToInventory.NormalizeKey | aztec_ansible/common/csv_to_inventory.py:31 | A header name is trimmed and upper-cased. Which names meet on one key is stated by `NormalizeKeyMatch`. |
| CsvToInventory.NormalizeKeyMatch | aztec_ansible/common/csv_to_inventory.py:31 | Two header names land on the same key exactly when, once trimmed, they differ only in the case of ASCII letters. |
| CsvToInventory.NormalizeValue | aztec_ansible/common/csv_to_inventory.py:32 | A present cell is trimmed and a missing one becomes empty. What this gives under each key is stated by `NormalizeSpec`. |
| CsvToInventory.Lookup | aztec_ansible/common/csv_to_inventory.py:35-47 | `.get` with an empty default: an absent name reads as empty. Its use in the alias chains is stated by `FirstNonEmpty` and `Resolve`. |
| CsvToInventory.FirstNonEmpty | aztec_ansible/common/csv_to_inventory.py:40-47 | An `or` chain of `get` calls is empty exactly when every alias is absent or empty. Otherwise it is the value of the first alias whose value is non-empty. |
| CsvToInventory.IpPriority | aztec_ansible/common/csv_to_inventory.py:35-38 | `IP` beats every other IP alias. `IP_ADDRESS`, `SERVER_IP` and `HOST` are used, in that order, only when every earlier alias is empty or absent. |
| CsvToInventory.Resolve | aztec_ansible/common/csv_to_inventory.py:35-47 | Each of the three fields is what its alias chain yields over the working dictionary: empty exactly when every alias is absent or empty, otherwise the value of the first alias whose value is non-empty. The IP is empty exactly when the row has no IP. |
| CsvToInventory.ParseRow | aztec_ansible/common/csv_to_inventory.py:26-58 | A row is accepted exactly when one of its IP aliases has a non-empty value. It then yields the three resolved fields, with a non-empty IP. Otherwise it is refused with the message naming its row number. |
| CsvToInventory.ParseAll | aztec_ansible/common/csv_to_inventory.py:148-151 | One outcome per record, in order, numbered from 2. The outcome of each record is stated by `RowOutcome`. |
| CsvToInventory.Kept | aztec_ansible/common/csv_to_inventory.py:151-153 | The successes' records, never more than the outcomes. Which records and in what order is stated by `KeptIsFilterMap`, `KeptAppend` and `KeptEmpty`. |
| CsvToInventory.Accepted | aztec_ansible/common/csv_to_inventory.py:148-153 | The servers of a batch. Which rows they come from is stated by `AcceptedIsFilterMap` and `AcceptedEmpty`. |
| CsvToInventory.KeepSuccesses | aztec_ansible/common/csv_to_inventory.py:151-153 | The loop appends the record of every success and skips every failure. Its result is the records of the successes, in order. |
| CsvToInventory.CollectServers | aztec_ansible/common/csv_to_inventory.py:147-153 | The batch loop parses every row, numbering from 2, and returns the accepted records in input order. |
| CsvToInventory.KeptAppend | aztec_ansible/common/csv_to_inventory.py:148-153 | Keeping is compositional: the records of a batch are those of its first part followed by those of the rest, so no row affects another row's outcome. |
| CsvToInventory.KeptIsFilterMap | aztec_ansible/common/csv_to_inventory.py:152-153 | The kept records correspond one to one, and in order, to the positions of the successful outcomes. Each is the record of its outcome. |
| CsvToInventory.KeptEmpty | aztec_ansible/common/csv_to_inventory.py:148-163 | Nothing is kept exactly when every outcome is a failure. |
| CsvToInventory.RowOutcome | aztec_ansible/common/csv_to_inventory.py:148-151 | The outcome of row i of a batch depends on that row alone. It is a success exactly when the row has an IP, and its record is the row's resolved fields. |
| CsvToInventory.AcceptedIsFilterMap | aztec_ansible/common/csv_to_inventory.py:148-154 | The servers of a batch are exactly the rows that have an IP, each resolved from its own row, in the rows' order. No row with an IP is lost. |
| CsvToInventory.AcceptedEmpty | aztec_ansible/common/csv_to_inventory.py:161-163 | A batch yields no server exactly when no row has an IP. |
| CsvToInventory.Convert | aztec_ansible/common/csv_to_inventory.py:147-172 | The conversion fails with "No valid servers found in CSV file" exactly when no row has an IP. Otherwise it yields the inventory of the accepted servers and the fixed variables file. |
| CsvToInventory.VarsFileAgreesWithInventory | aztec_ansible/common/csv_to_inventory.py:89-101 | The variables file `VarsLines` sets `ansible_ssh_user` to `ubuntu`, the same user that every node line of the inventory names. |
| CsvToInventory.Encoded | aztec_ansible/common/csv_to_inventory.py:68-69 | A field is written as text whose base64 decoding gives back exactly the field's UTF-8 octets. It is empty exactly when the field is. |
| CsvToInventory.NodeTokens | aztec_ansible/common/csv_to_inventory.py:71-76 | The line of server i is made of six tokens. What they say is stated by `NodeTokensReadBack`. |
| CsvToInventory.NodeTokensReadBack | aztec_ansible/common/csv_to_inventory.py:71-76 | The first token names the node with a numeral that reads back as i. The last two decode back to the server's address and private key. |
| CsvToInventory.NodeLine | aztec_ansible/common/csv_to_inventory.py:71-76 | For an IP without a newline, the line holds no newline. How it splits is stated by `NodeLineSplits`. |
| CsvToInventory.NodeLineSplits | aztec_ansible/common/csv_to_inventory.py:71-76 | For an IP without a blank, the line splits at blanks into exactly its six tokens. |
| CsvToInventory.SplitTokens | aztec_ansible/common/csv_to_inventory.py:71-76 | Any six tokens of the server-line shape without a blank come back from splitting their join at blanks. |
| CsvToInventory.RenderInventory | aztec_ansible/common/csv_to_inventory.py:60-77 | The inventory starts with the line `[aztec_nodes]` and ends with a newline. Its full layout is stated by `InventoryLayout`, and its read-back by `InventoryRoundTrip`. |
| CsvToInventory.EncodedHasNoSeparator | aztec_ansible/common/csv_to_inventory.py:67-69 | A base64-encoded field never contains a blank or a newline, so it cannot break the line format. |
| CsvToInventory.DecodeFieldEncoded | aztec_ansible/common/csv_to_inventory.py:67-69 | An encoded field, behind its key, decodes back to exactly the original text. This holds for any text, the empty one included. |
| CsvToInventory.ParseNodeLineRoundTrip | aztec_ansible/common/csv_to_inventory.py:66-76 | The line of the i-th server reads back as: node number i, its IP as both `ansible_host` and `server_ip`, the user `ubuntu`, and its address and private key exactly. This needs an IP without a blank. |
| CsvToInventory.ParseNodeLinesRoundTrip | aztec_ansible/common/csv_to_inventory.py:66-76 | Consecutive server lines read back as consecutive entries, numbered from the first line's number. This needs IPs without a blank. |
| CsvToInventory.InventoryLayout | aztec_ansible/common/csv_to_inventory.py:60-76 | When no IP holds a newline, the inventory of n servers has n + 1 newline-terminated lines. The first is the group header, and line i is the line of the i-th server, numbered i whatever rows were refused before it. |
| CsvToInventory.InventoryRoundTrip | aztec_ansible/common/csv_to_inventory.py:60-80 | Reading the inventory back gives one entry per server, numbered 1 to n in order, with every field recovered. |
| Strings.Strip | aztec_ansible/common/csv_to_inventory.py:31-32 | `str.strip()` gives the infix that neither starts nor ends with whitespace, with only whitespace around it. It is empty exactly when the text is all whitespace. |
| Strings.ToUpper | aztec_ansible/common/csv_to_inventory.py:31 | Upper-casing keeps the length and maps each character on its own. What it identifies is stated by `Strings.ToUpperIgnoresCase`. |
| Strings.ToUpperIgnoresCase | aztec_ansible/common/csv_to_inventory.py:31 | Two texts upper-case to the same text exactly when they agree up to the case of ASCII letters. That relation is defined letter by letter, without upper-casing. |
| Strings.NatToString | aztec_ansible/common/csv_to_inventory.py:72 | The node number is written as the shortest decimal numeral of i: digits only, no leading zero, denoting i. |
| Strings.ParseNatToString | aztec_ansible/common/csv_to_inventory.py:72 | Reading a node numeral back gives the number, so distinct servers get distinct names. |
| Base64.Encode | aztec_ansible/common/csv_to_inventory.py:68-69 | `b64encode` writes only alphabet characters and `=`. |
| Base64.EncodeLength | aztec_ansible/common/csv_to_inventory.py:68 | The encoding has four characters for every started group of three octets. |
| Base64.EncodeEmpty | aztec_ansible/common/csv_to_inventory.py:69 | The encoding is empty exactly when the octets are. An empty private key gives an empty value. |
| Base64.DecodeEncode | aztec_ansible/common/csv_to_inventory.py:68-69 | Decoding any encoding gives the octets back. |
| Base64.DecodeEncodeText | aztec_ansible/common/csv_to_inventory.py:68 | The base64 of the UTF-8 octets of a text decodes back to that text. |
| Utf8.DecodeEncode | aztec_ansible/common/csv_to_inventory.py:69 | `str.encode()` is reversible: decoding the UTF-8 octets of any text gives the text. |
| Utf8.EncodeInjective | aztec_ansible/common/csv_to_inventory.py:68-69 | Distinct texts have distinct UTF-8 encodings. |
| Utf8.Encode | aztec_ansible/common/csv_to_inventory.py:68-69 | `str.encode()` writes one to four octets per character. Its inverse is stated by `Utf8.DecodeEncode`. |
| ParseProof.ParseProofOutput | aztec_ansible/get_proof_playbook/parse_proof.py:11-45 | The status is SUCCESS or ERROR, and SUCCESS exactly when both fields were found, with an empty error. Blank output gives the fixed empty-output result. Otherwise the fields are the two searches' results, and an ERROR carries the missing-data message. The block number is "N/A" or a run of digits, and the proof holds no whitespace. |
| ParseProof.BlockNumberField | aztec_ansible/get_proof_playbook/parse_proof.py:24-26 | The block number is "N/A" or a non-empty run of digits. Which run it is is stated by `BlockNumberFound` and `BlockNumberOrigin`. |
| ParseProof.ProofField | aztec_ansible/get_proof_playbook/parse_proof.py:29-34 | The proof holds no whitespace. Which text it is is stated by `ProofFound` and `ProofOrigin`. |
| ParseProof.Search | aztec_ansible/get_proof_playbook/parse_proof.py:24 | `re.search` reports a start position where the pattern matches, with that match's group. No earlier position matches, and it reports nothing only when no position matches. |
| ParseProof.ProofMatchAt | aztec_ansible/get_proof_playbook/parse_proof.py:29 | `Proof:\s*(.+)` matches at p exactly when the label is there with at least one character after it. The group is then a non-empty tail of the text that starts after the label. |
| ParseProof.BlockMatchAt | aztec_ansible/get_proof_playbook/parse_proof.py:24 | A match of `Номер блока:\s*(\d+)` at p gives a non-empty run of digits. That it gives exactly the pattern's occurrences is stated by `BlockMatchAtSound` and `BlockMatchAtComplete`. |
| ParseProof.BlockMatchAtSound | aztec_ansible/get_proof_playbook/parse_proof.py:24-26 | Whatever the block-number scan accepts at p is an occurrence of the pattern: label, whitespace, then a maximal run of digits. |
| ParseProof.BlockMatchAtComplete | aztec_ansible/get_proof_playbook/parse_proof.py:24 | Every occurrence of the block-number pattern at p is found by the scan at p, with its digits as the group. |
| ParseProof.BlockNumberFound | aztec_ansible/get_proof_playbook/parse_proof.py:24-26 | The reported block number is the digit run of the leftmost occurrence of the pattern. |
| ParseProof.BlockNumberMissing | aztec_ansible/get_proof_playbook/parse_proof.py:12-26 | Without any occurrence of the pattern, the block number stays "N/A". |
| ParseProof.BlockNumberOrigin | aztec_ansible/get_proof_playbook/parse_proof.py:25-26 | A reported block number always comes from the leftmost occurrence of the pattern. |
| ParseProof.ProofGroupCleaned | aztec_ansible/get_proof_playbook/parse_proof.py:30-34 | Trimming the proof group and deleting its whitespace gives the text after the label without its whitespace, whichever way the regular expression cut the group. |
| ParseProof.ProofFound | aztec_ansible/get_proof_playbook/parse_proof.py:29-34 | The reported proof is the text after the leftmost proof label that has something after it, with all whitespace deleted. |
| ParseProof.ProofMissing | aztec_ansible/get_proof_playbook/parse_proof.py:13-34 | Without a proof label that has a character after it, the proof stays "N/A". |
| ParseProof.ProofOrigin | aztec_ansible/get_proof_playbook/parse_proof.py:29-30 | A reported proof always comes from the leftmost proof label that has something after it. |
| ParseProof.MissingDataError | aztec_ansible/get_proof_playbook/parse_proof.py:40 | The error text names the block number and says whether the proof was found. Where it is used is stated by `ParseProofOutput` and `LiteralNotAvailableProof`. |
| ParseProof.BlankProofCountsAsFound | aztec_ansible/get_proof_playbook/parse_proof.py:29-40 | A proof label followed only by whitespace yields an empty proof that counts as found. The status then depends on the block number alone. |
| ParseProof.LiteralNotAvailableProof | aztec_ansible/get_proof_playbook/parse_proof.py:36-40 | A proof whose text is literally "N/A" cannot be told from a missing one. The result is an ERROR that says the proof is missing. |
| Strings.RemoveWhitespaceStrip | aztec_ansible/get_proof_playbook/parse_proof.py:32-33 | Trimming before deleting whitespace changes nothing: both give the same text. |
| Strings.RemoveWhitespace | aztec_ansible/get_proof_playbook/parse_proof.py:33 | Deleting every run of whitespace leaves no whitespace and never lengthens the text. A text without whitespace is unchanged, and an all-whitespace text becomes empty. |
| Strings.RemoveWhitespaceAppend | aztec_ansible/get_proof_playbook/parse_proof.py:33 | Deleting whitespace distributes over concatenation, so it can be done piece by piece. |

## Left out

- Console output is not modelled: the coloured log, error and success messages. A refused row's message is kept as the `Failure` value.
- File-system and process I/O are not modelled: `argv`, the existence check, `makedirs`, opening files and `IOError`. The two files are returned as text.
- The CSV tokeniser of `csv.DictReader` is not modelled: quoting, delimiters and line splitting. Records arrive as the header's names paired with their cells, and a short record's missing cell is `None`. The reader's building of a dictionary from them is modelled.
- A row with more fields than the header is not modelled. The reader files the extra fields under the key `None`, and `None.strip()` then raises, which ends the conversion with exit code 1.
- The checks for an empty header and for a `csv.Error` are not modelled, for the same reason.
- Strings.IsDigit: `\d` is taken as the ASCII digits. Python's class also matches every other Unicode decimal digit.
- Strings.ToUpper: upper-casing is ASCII only. Python's `str.upper()` also maps non-ASCII letters, some to two characters.
- CsvToInventory.InventoryLayout: this needs IPs without a newline. The IP is written unquoted, so an IP with an inner newline adds lines to the inventory, and the line count is then larger than n + 1.
- CsvToInventory.InventoryRoundTrip: this needs IPs without a blank or a newline. The line format does not quote the IP, so such an IP would split the line. `CsvToInventory.ParseNodeLineRoundTrip` needs an IP without a blank for the same reason.
- CsvToInventory.Convert: the variables file is returned as its lines, which are written each followed by a newline. Its text is the constant `VarsLines`. Beyond being returned, only its SSH user is proved to match the inventory's (`VarsFileAgreesWithInventory`).
- The `except Exception` branch of `parse_proof_output` is not modelled. None of the operations in the `try` block raises for a text input.
- `main` of the proof extractor is not modelled: the argument check and the JSON printing. `None` as the output is also not modelled, since the script always passes a string.
- `validator_stats.rb` is not part of this model.

=== FILE: base64.dfy ===
/** The standard base64 encoding of RFC 4648, section 4: 64-character
    alphabet `A-Z a-z 0-9 + /`, output padded with `=` to a multiple of four
    characters. */
module Base64 {
  import opened Wrappers
  import opened Utf8

  predicate IsAlphabetChar(c: char) {
    'A' <= c <= 'Z' || 'a' <= c <= 'z' || '0' <= c <= '9' || c == '+' || c == '/'
  }

  /** The character for a six-bit value (Table 1 of RFC 4648). */
  function CharOf(i: int): (c: char)
    requires 0 <= i < 64
    ensures IsAlphabetChar(c)
  {
    if i < 26 then ('A' as int + i) as char
    else if i < 52 then ('a' as int + (i - 26)) as char
    else if i < 62 then ('0' as int + (i - 52)) as char
    else if i == 62 then '+'
    else '/'
  }

  /** The six-bit value of an alphabet character; inverse of `CharOf`. */
  function IndexOf(c: char): (i: int)
    requires IsAlphabetChar(c)
    ensures 0 <= i < 64 && CharOf(i) == c
  {
    if 'A' <= c <= 'Z' then c as int - 'A' as int
    else if 'a' <= c <= 'z' then c as int - 'a' as int + 26
    else if '0' <= c <= '9' then c as int - '0' as int + 52
    else if c == '+' then 62
    else 63
  }

  lemma IndexOfCharOf(i: int)
    requires 0 <= i < 64
    ensures IndexOf(CharOf(i)) == i
  {
  }

  /** Three octets as four characters. */
  function EncodeQuantum(b0: byte, b1: byte, b2: byte): string
  {
    [CharOf(b0 / 4), CharOf((b0 % 4) * 16 + b1 / 16), CharOf((b1 % 16) * 4 + b2 / 64), CharOf(b2 % 64)]
  }

  /** Python's `base64.b64encode`: every full group of three octets becomes
      four characters, and a final group of one or two octets becomes two or
      three characters followed by `=` padding. */
  function Encode(b: seq<byte>): (r: string)
    ensures forall k :: 0 <= k < |r| ==> IsAlphabetChar(r[k]) || r[k] == '='
    decreases |b|
  {
    if |b| == 0 then ""
    else if |b| == 1 then [CharOf(b[0] / 4), CharOf((b[0] % 4) * 16), '=', '=']
    else if |b| == 2 then [CharOf(b[0] / 4), CharOf((b[0] % 4) * 16 + b[1] / 16), CharOf((b[1] % 16) * 4), '=']
    else EncodeQuantum(b[0], b[1], b[2]) + Encode(b[3..])
  }

  /** Four characters for every started group of three octets. */
  lemma {:induction false} EncodeLength(b: seq<byte>)
    ensures |Encode(b)| == 4 * ((|b| + 2) / 3)
    decreases |b|
  {
    if |b| >= 3 {
      EncodeLength(b[3..]);
      assert (|b| + 2) / 3 == (|b[3..]| + 2) / 3 + 1;
    }
  }

  /** Four characters as one, two or three octets, honouring `=` padding. */
  function DecodeQuantum(q: string): (r: Option<seq<byte>>)
    requires |q| == 4
    ensures r.Some? ==> 1 <= |r.value| <= 3
    ensures r.Some? && |r.value| == 3 ==> q[3] != '='
  {
    if !IsAlphabetChar(q[0]) || !IsAlphabetChar(q[1]) then None
    else
      var i0, i1 := IndexOf(q[0]), IndexOf(q[1]);
      var o0: byte := i0 * 4 + i1 / 16;
      if q[2] == '=' then
        if q[3] == '=' then Some([o0]) else None
      else if !IsAlphabetChar(q[2]) then None
      else
        var i2 := IndexOf(q[2]);
        var o1: byte := (i1 % 16) * 16 + i2 / 4;
        if q[3] == '=' then Some([o0, o1])
        else if !IsAlphabetChar(q[3]) then None
        else Some([o0, o1, (i2 % 4) * 64 + IndexOf(q[3])])
  }

  /** Decoding that is strict about padding: the text is a sequence of
      four-character groups of which only the last may carry padding. The
      unused bits of a padded group are ignored, so `QR==` decodes like
      `QQ==`. */
  function Decode(s: string): (r: Option<seq<byte>>)
    ensures r.Some? ==> |s| % 4 == 0
    decreases |s|
  {
    if |s| == 0 then Some([])
    else if |s| < 4 then None
    else
      match DecodeQuantum(s[..4])
      case None => None
      case Some(first) =>
        if |first| < 3 then
          if |s| == 4 then Some(first) else None
        else
          match Decode(s[4..])
          case None => None
          case Some(rest) => Some(first + rest)
  }

  /** Decoding four alphabet characters, in terms of their six-bit values. */
  lemma DecodeQuantumFull(i0: int, i1: int, i2: int, i3: int)
    requires 0 <= i0 < 64 && 0 <= i1 < 64 && 0 <= i2 < 64 && 0 <= i3 < 64
    ensures DecodeQuantum([CharOf(i0), CharOf(i1), CharOf(i2), CharOf(i3)])
            == Some([i0 * 4 + i1 / 16, (i1 % 16) * 16 + i2 / 4, (i2 % 4) * 64 + i3])
  {
    IndexOfCharOf(i0);
    IndexOfCharOf(i1);
    IndexOfCharOf(i2);
    IndexOfCharOf(i3);
  }

  lemma DecodeQuantumPadOne(i0: int, i1: int, i2: int)
    requires 0 <= i0 < 64 && 0 <= i1 < 64 && 0 <= i2 < 64
    ensures DecodeQuantum([CharOf(i0), CharOf(i1), CharOf(i2), '='])
            == Some([i0 * 4 + i1 / 16, (i1 % 16) * 16 + i2 / 4])
  {
    IndexOfCharOf(i0);
    IndexOfCharOf(i1);
    IndexOfCharOf(i2);
  }

  lemma DecodeQuantumPadTwo(i0: int, i1: int)
    requires 0 <= i0 < 64 && 0 <= i1 < 64
    ensures DecodeQuantum([CharOf(i0), CharOf(i1), '=', '=']) == Some([i0 * 4 + i1 / 16])
  {
    IndexOfCharOf(i0);
    IndexOfCharOf(i1);
  }

  /** The six-bit groups of two octets, reassembled. */
  lemma SextetArith(b0: byte, b1: byte, b2: byte)
    ensures ((b0 % 4) * 16 + b1 / 16) / 16 == b0 % 4
    ensures ((b0 % 4) * 16 + b1 / 16) % 16 == b1 / 16
    ensures ((b1 % 16) * 4 + b2 / 64) / 4 == b1 % 16
    ensures ((b1 % 16) * 4 + b2 / 64) % 4 == b2 / 64
  {
  }

  /** The octets rebuilt from the four six-bit groups of three octets. */
  lemma QuantumArith(b0: byte, b1: byte, b2: byte, i0: int, i1: int, i2: int, i3: int)
    requires i0 == b0 / 4 && i1 == (b0 % 4) * 16 + b1 / 16
    requires i2 == (b1 % 16) * 4 + b2 / 64 && i3 == b2 % 64
    ensures i0 * 4 + i1 / 16 == b0
    ensures (i1 % 16) * 16 + i2 / 4 == b1
    ensures (i2 % 4) * 64 + i3 == b2
  {
    SextetArith(b0, b1, b2);
  }

  lemma DecodeEncodeQuantum(b0: byte, b1: byte, b2: byte)
    ensures DecodeQuantum(EncodeQuantum(b0, b1, b2)) == Some([b0, b1, b2])
  {
    var i0, i1, i2, i3 := b0 / 4, (b0 % 4) * 16 + b1 / 16, (b1 % 16) * 4 + b2 / 64, b2 % 64;
    var q := [CharOf(i0), CharOf(i1), CharOf(i2), CharOf(i3)];
    var x := [i0 * 4 + i1 / 16, (i1 % 16) * 16 + i2 / 4, (i2 % 4) * 64 + i3];
    DecodeQuantumFull(i0, i1, i2, i3);
    QuantumArith(b0, b1, b2, i0, i1, i2, i3);
    assert EncodeQuantum(b0, b1, b2) == q;
    assert x[0] == b0 && x[1] == b1 && x[2] == b2;
  }

  /** A text of one padded group decodes as that group. */
  lemma DecodeLastQuantum(s: string, x: seq<byte>)
    requires |s| == 4 && DecodeQuantum(s) == Some(x) && |x| < 3
    ensures Decode(s) == Some(x)
  {
    assert s[..4] == s;
  }

  lemma EncodeOneShape(b: seq<byte>)
    requires |b| == 1
    ensures Encode(b) == [CharOf(b[0] / 4), CharOf((b[0] % 4) * 16), '=', '=']
  {
  }

  lemma EncodeTwoShape(b: seq<byte>)
    requires |b| == 2
    ensures Encode(b) == [CharOf(b[0] / 4), CharOf((b[0] % 4) * 16 + b[1] / 16), CharOf((b[1] % 16) * 4), '=']
  {
  }

  lemma DecodePaddedTwo(s: string, b: seq<byte>)
    requires |b| == 1 && s == [CharOf(b[0] / 4), CharOf((b[0] % 4) * 16), '=', '=']
    ensures Decode(s) == Some(b)
  {
    var i0, i1 := b[0] / 4, (b[0] % 4) * 16;
    DecodeQuantumPadTwo(i0, i1);
    SextetArith(b[0], 0, 0);
    assert [i0 * 4 + i1 / 16] == b;
    DecodeLastQuantum(s, b);
  }

  lemma DecodeEncodePair(b0: byte, b1: byte)
    ensures DecodeQuantum([CharOf(b0 / 4), CharOf((b0 % 4) * 16 + b1 / 16), CharOf((b1 % 16) * 4), '='])
            == Some([b0, b1])
  {
    var i0, i1, i2 := b0 / 4, (b0 % 4) * 16 + b1 / 16, (b1 % 16) * 4;
    DecodeQuantumPadOne(i0, i1, i2);
    PadOneArith(b0, b1, i0, i1, i2);
    var x := [i0 * 4 + i1 / 16, (i1 % 16) * 16 + i2 / 4];
    assert x[0] == b0 && x[1] == b1;
  }

  lemma DecodePaddedOne(s: string, b: seq<byte>)
    requires |b| == 2
    requires s == [CharOf(b[0] / 4), CharOf((b[0] % 4) * 16 + b[1] / 16), CharOf((b[1] % 16) * 4), '=']
    ensures Decode(s) == Some(b)
  {
    var b0, b1 := b[0], b[1];
    assert [b0, b1] == b;
    DecodeEncodePair(b0, b1);
    DecodeLastQuantum(s, b);
  }

  lemma PadOneArith(b0: byte, b1: byte, i0: int, i1: int, i2: int)
    requires i0 == b0 / 4 && i1 == (b0 % 4) * 16 + b1 / 16 && i2 == (b1 % 16) * 4
    ensures i0 * 4 + i1 / 16 == b0
    ensures (i1 % 16) * 16 + i2 / 4 == b1
  {
    SextetArith(b0, b1, 0);
  }

  lemma DecodeEncodeOne(b: seq<byte>)
    requires |b| == 1
    ensures Decode(Encode(b)) == Some(b)
  {
    EncodeOneShape(b);
    DecodePaddedTwo(Encode(b), b);
  }

  lemma DecodeEncodeTwo(b: seq<byte>)
    requires |b| == 2
    ensures Decode(Encode(b)) == Some(b)
  {
    EncodeTwoShape(b);
    DecodePaddedOne(Encode(b), b);
  }

  /** A full group followed by a decodable rest. */
  lemma DecodeCons(s: string, x: seq<byte>, y: seq<byte>)
    requires |s| >= 4 && DecodeQuantum(s[..4]) == Some(x) && |x| == 3
    requires Decode(s[4..]) == Some(y)
    ensures Decode(s) == Some(x + y)
  {
  }

  /** The encoding of three or more octets: one full group, then the rest. */
  lemma EncodeCons(b: seq<byte>)
    requires |b| >= 3
    ensures Encode(b)[..4] == EncodeQuantum(b[0], b[1], b[2])
    ensures Encode(b)[4..] == Encode(b[3..])
  {
    assert Encode(b) == EncodeQuantum(b[0], b[1], b[2]) + Encode(b[3..]);
  }

  lemma DecodeFullThenRest(s: string, b: seq<byte>)
    requires |b| >= 3 && |s| >= 4
    requires DecodeQuantum(s[..4]) == Some(b[..3])
    requires Decode(s[4..]) == Some(b[3..])
    ensures Decode(s) == Some(b)
  {
    var x, y := b[..3], b[3..];
    assert b == x + y;
    DecodeCons(s, x, y);
  }

  /** The first group of an encoding of three or more octets decodes to the
      first three octets. */
  lemma DecodeFirstQuantum(q: string, b: seq<byte>)
    requires |b| >= 3 && q == EncodeQuantum(b[0], b[1], b[2])
    ensures DecodeQuantum(q) == Some(b[..3])
  {
    var b0, b1, b2 := b[0], b[1], b[2];
    assert [b0, b1, b2] == b[..3];
    DecodeEncodeQuantum(b0, b1, b2);
  }

  /** Decoding the encoding of any octet sequence gives it back
      (RFC 4648 encodings are reversible). */
  lemma {:induction false} DecodeEncode(b: seq<byte>)
    ensures Decode(Encode(b)) == Some(b)
    decreases |b|
  {
    if |b| == 1 {
      DecodeEncodeOne(b);
    } else if |b| == 2 {
      DecodeEncodeTwo(b);
    } else if |b| >= 3 {
      EncodeCons(b);
      DecodeFirstQuantum(Encode(b)[..4], b);
      DecodeEncode(b[3..]);
      DecodeFullThenRest(Encode(b), b);
    }
  }

  /** The encoding of the UTF-8 octets of a text decodes back to that text. */
  lemma DecodeEncodeText(s: string)
    ensures var bytes := Decode(Encode(Utf8.Encode(s)));
            bytes.Some? && Utf8.Decode(bytes.value) == Some(s)
  {
    DecodeEncode(Utf8.Encode(s));
    Utf8.DecodeEncode(s);
  }

  /** Only the empty octet sequence encodes to the empty text. */
  lemma EncodeEmpty(b: seq<byte>)
    ensures Encode(b) == "" <==> b == []
  {
  }
}

=== FILE: csv_to_inventory.dfy ===
/** The CSV-to-inventory converter: normalisation of one CSV row through
    fixed alias chains, the batch loop that keeps the accepted rows, and the
    text of the inventory and variables files. File and console I/O are not
    part of the model; rows arrive already split into cells and the files are
    returned as text. */
module CsvToInventory {
  import opened Wrappers
  import opened Strings
  import Utf8
  import Base64

  /** One CSV record: the header's column names in order, each paired with
      its cell. A cell is `None` when the record has fewer fields than the
      header. A header may repeat a name. */
  type RawRow = seq<(string, Option<string>)>

  /** The items of a dictionary from names to cells, in insertion order. */
  type Items = seq<(string, Option<string>)>

  /** Item `i` is the first one carrying its name. */
  predicate IsFirstWithKey<V>(items: seq<(string, V)>, i: int) {
    && 0 <= i < |items|
    && forall j :: 0 <= j < i ==> items[j].0 != items[i].0
  }

  /** Item `i` is the last one carrying its name. */
  predicate IsLastWithKey<V>(items: seq<(string, V)>, i: int) {
    && 0 <= i < |items|
    && forall j :: i < j < |items| ==> items[j].0 != items[i].0
  }

  /** Some item carries `key`. */
  predicate HasKey(items: Items, key: string) {
    exists j :: 0 <= j < |items| && items[j].0 == key
  }

  /** The first item carrying `key`. */
  function KeyIndex(items: Items, key: string): (j: nat)
    requires HasKey(items, key)
    ensures j < |items| && items[j].0 == key
    ensures forall l :: 0 <= l < j ==> items[l].0 != key
  {
    if items[0].0 == key then 0
    else
      assert HasKey(items[1..], key) by {
        var l :| 0 <= l < |items| && items[l].0 == key;
        assert items[1..][l - 1].0 == key;
      }
      KeyIndex(items[1..], key) + 1
  }

  /** Python's `d[key] = value` on a dictionary held as its items in
      insertion order: a present key keeps its place and takes the new value,
      and a new key is added at the end. */
  function Store(items: Items, key: string, value: Option<string>): (r: Items)
    ensures |r| == if HasKey(items, key) then |items| else |items| + 1
    ensures (key, value) in r
  {
    if HasKey(items, key) then
      var k := KeyIndex(items, key);
      assert items[k := (key, value)][k] == (key, value);
      items[k := (key, value)]
    else
      assert (items + [(key, value)])[|items|] == (key, value);
      items + [(key, value)]
  }

  /** Storing changes no other name's item, nor any item's name. */
  lemma StoreKeeps(items: Items, key: string, value: Option<string>, j: int)
    requires 0 <= j < |items|
    ensures Store(items, key, value)[j].0 == items[j].0
    ensures items[j].0 != key ==> Store(items, key, value)[j] == items[j]
  {
  }

  /** After storing, the names present are the old ones and `key`. */
  lemma StoreKeys(items: Items, key: string, value: Option<string>, name: string)
    ensures HasKey(Store(items, key, value), name) <==> HasKey(items, name) || name == key
  {
    var r := Store(items, key, value);
    if HasKey(items, name) {
      var j :| 0 <= j < |items| && items[j].0 == name;
      StoreKeeps(items, key, value, j);
      assert r[j].0 == name;
    }
    if HasKey(r, name) && name != key {
      var j :| 0 <= j < |r| && r[j].0 == name;
      if j < |items| {
        StoreKeeps(items, key, value, j);
      } else {
        assert r[j] == (key, value);
      }
    }
    var k :| 0 <= k < |r| && r[k] == (key, value);
    assert r[k].0 == key;
  }

  /** The dictionary the CSV reader builds for a record, as its items: the
      cells stored in header order, so a repeated name keeps the place of its
      first column and the cell of its last. */
  function ReaderDict(row: RawRow): (d: Items)
    ensures |d| <= |row|
    decreases |row|
  {
    if |row| == 0 then []
    else Store(ReaderDict(row[..|row| - 1]), row[|row| - 1].0, row[|row| - 1].1)
  }

  /** The reader's dictionary has exactly the header's names as keys. */
  lemma {:induction false} ReaderDictKeys(row: RawRow, key: string)
    ensures HasKey(ReaderDict(row), key) <==> HasKey(row, key)
  {
    if |row| > 0 {
      var n := |row| - 1;
      var init, last := row[..n], row[n];
      ReaderDictKeys(init, key);
      StoreKeys(ReaderDict(init), last.0, last.1, key);
      assert HasKey(row, key) <==> HasKey(init, key) || last.0 == key by {
        if HasKey(row, key) && last.0 != key {
          var i :| 0 <= i < |row| && row[i].0 == key;
          assert init[i].0 == key;
        }
        if HasKey(init, key) {
          var i :| 0 <= i < |init| && init[i].0 == key;
          assert row[i].0 == key;
        }
      }
    }
  }

  /** No name occurs twice in the reader's dictionary. */
  lemma {:induction false} ReaderDictDistinct(row: RawRow, i: int, j: int)
    requires 0 <= i < j < |ReaderDict(row)|
    ensures ReaderDict(row)[i].0 != ReaderDict(row)[j].0
  {
    var n := |row| - 1;
    var init, last := row[..n], row[n];
    var prev := ReaderDict(init);
    var d := ReaderDict(row);
    StoreKeeps(prev, last.0, last.1, i);
    if j < |prev| {
      StoreKeeps(prev, last.0, last.1, j);
      ReaderDictDistinct(init, i, j);
    } else {
      assert d == prev + [last];
      assert prev[i].0 != last.0;
    }
  }

  /** Under each name the reader's dictionary holds the cell of the last
      column carrying it; with distinct names, that is the name's only
      item. */
  lemma {:induction false} ReaderDictValues(row: RawRow, i: int)
    requires IsLastWithKey(row, i)
    ensures row[i] in ReaderDict(row)
  {
    var n := |row| - 1;
    var init, last := row[..n], row[n];
    var prev := ReaderDict(init);
    if i < n {
      assert init[i] == row[i];
      assert IsLastWithKey(init, i);
      ReaderDictValues(init, i);
      var j :| 0 <= j < |prev| && prev[j] == row[i];
      StoreKeeps(prev, last.0, last.1, j);
    }
  }

  /** The reader's dictionary keeps its names in the order of their first
      columns: a name placed before another one already occurs before the
      other's first column. */
  lemma {:induction false} ReaderDictOrder(row: RawRow, j1: int, j2: int, g: int)
    requires 0 <= j1 < j2 < |ReaderDict(row)|
    requires IsFirstWithKey(row, g) && row[g].0 == ReaderDict(row)[j2].0
    ensures exists e :: 0 <= e < g && row[e].0 == ReaderDict(row)[j1].0
  {
    var n := |row| - 1;
    var init, last := row[..n], row[n];
    var prev := ReaderDict(init);
    var d := ReaderDict(row);
    var name := prev[j1].0;
    StoreKeeps(prev, last.0, last.1, j1);
    assert HasKey(prev, name);
    ReaderDictKeys(init, name);
    if g == n {
      var e :| 0 <= e < |init| && init[e].0 == name;
      assert row[e].0 == name;
    } else {
      assert init[g] == row[g];
      assert HasKey(init, row[g].0);
      ReaderDictKeys(init, row[g].0);
      StoreKeeps(prev, last.0, last.1, j2);
      assert IsFirstWithKey(init, g);
      ReaderDictOrder(init, j1, j2, g);
      var e :| 0 <= e < g && init[e].0 == name;
      assert row[e].0 == name;
    }
  }

  /** A name that occurs has a first column. */
  lemma {:induction false} FirstWithKeyExists(row: RawRow, key: string)
    requires HasKey(row, key)
    ensures exists g :: IsFirstWithKey(row, g) && row[g].0 == key
  {
    if row[0].0 == key {
      assert IsFirstWithKey(row, 0);
    } else {
      var j :| 0 <= j < |row| && row[j].0 == key;
      assert row[1..][j - 1].0 == key;
      FirstWithKeyExists(row[1..], key);
      var g :| IsFirstWithKey(row[1..], g) && row[1..][g].0 == key;
      assert IsFirstWithKey(row, g + 1);
    }
  }

  /** The canonical server record a valid row becomes. */
  datatype ServerRecord = ServerRecord(ip: string, address: string, privateKey: string)

  /** Priority chains of normalised column names, highest priority first. */
  const IpAliases: seq<string> := ["IP", "IP_ADDRESS", "SERVER_IP", "HOST"]
  const AddressAliases: seq<string> := ["ADDRESS", "ETH_ADDRESS", "ETHEREUM_ADDRESS", "WALLET_ADDRESS"]
  const PrivateKeyAliases: seq<string> := ["PRIVATE_KEY", "PRIV_KEY", "KEY"]

  /** A column name as it is looked up: trimmed and upper-cased. */
  function NormalizeKey(key: string): string {
    ToUpper(Strip(key))
  }

  /** Two header names land on the same key exactly when, once trimmed, they
      differ only in the case of ASCII letters. */
  lemma NormalizeKeyMatch(x: string, y: string)
    ensures NormalizeKey(x) == NormalizeKey(y) <==> SameIgnoringAsciiCase(Strip(x), Strip(y))
  {
    ToUpperIgnoresCase(Strip(x), Strip(y));
  }

  /** A cell as it is stored: trimmed, and empty when missing. */
  function NormalizeValue(value: Option<string>): string {
    match value
    case None => ""
    case Some(v) => Strip(v)
  }

  /** A dictionary's items with normalised names and values, in item order. */
  function NormalizeCells(items: Items): (cells: seq<(string, string)>)
    ensures |cells| == |items|
    ensures forall i :: 0 <= i < |items| ==> cells[i] == (NormalizeKey(items[i].0), NormalizeValue(items[i].1))
  {
    seq(|items|, i requires 0 <= i < |items| => (NormalizeKey(items[i].0), NormalizeValue(items[i].1)))
  }

  /** The dictionary built by storing the cells one after the other: every
      name is present, nothing else is, and a name maps to the value of its
      last cell. */
  function BuildMap(cells: seq<(string, string)>): (m: map<string, string>)
    ensures forall i :: 0 <= i < |cells| ==> cells[i].0 in m
    ensures forall k :: k in m ==> exists i :: 0 <= i < |cells| && cells[i].0 == k
    ensures forall i :: IsLastWithKey(cells, i) ==> m[cells[i].0] == cells[i].1
    decreases |cells|
  {
    if |cells| == 0 then
      map[]
    else
      var last := cells[|cells| - 1];
      var prev := BuildMap(cells[..|cells| - 1]);
      var m := prev[last.0 := last.1];
      BuildMapStep(cells, cells[..|cells| - 1], prev, m);
      m
  }

  /** Storing the last cell keeps the three properties of `BuildMap`. */
  lemma BuildMapStep(cells: seq<(string, string)>, init: seq<(string, string)>,
                     prev: map<string, string>, m: map<string, string>)
    requires |cells| > 0 && init == cells[..|cells| - 1]
    requires forall i :: 0 <= i < |init| ==> init[i].0 in prev
    requires forall k :: k in prev ==> exists i :: 0 <= i < |init| && init[i].0 == k
    requires forall i :: IsLastWithKey(init, i) ==> prev[init[i].0] == init[i].1
    requires m == prev[cells[|cells| - 1].0 := cells[|cells| - 1].1]
    ensures forall i :: 0 <= i < |cells| ==> cells[i].0 in m
    ensures forall k :: k in m ==> exists i :: 0 <= i < |cells| && cells[i].0 == k
    ensures forall i :: IsLastWithKey(cells, i) ==> m[cells[i].0] == cells[i].1
  {
    assert forall i :: 0 <= i < |init| ==> init[i] == cells[i];
    forall k | k in m
      ensures exists i :: 0 <= i < |cells| && cells[i].0 == k
    {
      if k != cells[|cells| - 1].0 {
        var i :| 0 <= i < |init| && init[i].0 == k;
        assert cells[i].0 == k;
      }
    }
    forall i | IsLastWithKey(cells, i)
      ensures m[cells[i].0] == cells[i].1
    {
      if i < |init| {
        assert IsLastWithKey(init, i);
      }
    }
  }

  /** The working dictionary of a row: the reader's dictionary with names
      and values normalised, stored in its item order, so a later item
      overwrites an earlier one of the same normalised name. */
  function Normalize(row: RawRow): map<string, string> {
    BuildMap(NormalizeCells(ReaderDict(row)))
  }

  /** Raw name `f` wins its normalised name: no raw name first seen after it
      normalises the same way. */
  predicate WinsKey(row: RawRow, f: int) {
    && IsFirstWithKey(row, f)
    && forall g :: f < g < |row| && IsFirstWithKey(row, g) ==> NormalizeKey(row[g].0) != NormalizeKey(row[f].0)
  }

  /** The working dictionary stated on the record itself: its keys are the
      normalised column names, and under each is the normalised cell of the
      last column of the raw name that was first seen latest among those
      with that normalised form. */
  lemma NormalizeSpec(row: RawRow)
    ensures forall k :: k in Normalize(row) <==> exists i :: 0 <= i < |row| && NormalizeKey(row[i].0) == k
    ensures forall f, i :: WinsKey(row, f) && IsLastWithKey(row, i) && row[i].0 == row[f].0
                           ==> Normalize(row)[NormalizeKey(row[f].0)] == NormalizeValue(row[i].1)
  {
    var d := ReaderDict(row);
    var cells := NormalizeCells(d);
    forall k
      ensures k in Normalize(row) <==> exists i :: 0 <= i < |row| && NormalizeKey(row[i].0) == k
    {
      if k in Normalize(row) {
        var j :| 0 <= j < |cells| && cells[j].0 == k;
        assert HasKey(d, d[j].0);
        ReaderDictKeys(row, d[j].0);
        var i :| 0 <= i < |row| && row[i].0 == d[j].0;
        assert NormalizeKey(row[i].0) == k;
      }
      if exists i :: 0 <= i < |row| && NormalizeKey(row[i].0) == k {
        var i :| 0 <= i < |row| && NormalizeKey(row[i].0) == k;
        assert HasKey(row, row[i].0);
        ReaderDictKeys(row, row[i].0);
        var j :| 0 <= j < |d| && d[j].0 == row[i].0;
        assert cells[j].0 == k;
      }
    }
    forall f, i | WinsKey(row, f) && IsLastWithKey(row, i) && row[i].0 == row[f].0
      ensures Normalize(row)[NormalizeKey(row[f].0)] == NormalizeValue(row[i].1)
    {
      NormalizeWinner(row, f, i);
    }
  }

  /** The value clause of `NormalizeSpec` for one winning raw name `f` and its
      last column `i`. */
  lemma NormalizeWinner(row: RawRow, f: int, i: int)
    requires WinsKey(row, f) && IsLastWithKey(row, i) && row[i].0 == row[f].0
    ensures NormalizeKey(row[f].0) in Normalize(row)
    ensures Normalize(row)[NormalizeKey(row[f].0)] == NormalizeValue(row[i].1)
  {
    var d := ReaderDict(row);
    var cells := NormalizeCells(d);
    ReaderDictValues(row, i);
    var j :| 0 <= j < |d| && d[j] == row[i];
    forall l | j < l < |cells|
      ensures cells[l].0 != cells[j].0
    {
      assert HasKey(d, d[l].0);
      ReaderDictKeys(row, d[l].0);
      FirstWithKeyExists(row, d[l].0);
      var g :| IsFirstWithKey(row, g) && row[g].0 == d[l].0;
      ReaderDictOrder(row, j, l, g);
      var e :| 0 <= e < g && row[e].0 == d[j].0;
      assert row[e].0 == row[f].0;
      assert f < g;
    }
    assert IsLastWithKey(cells, j);
  }

  /** In the header `ip,IP,ip` with cells `a,b,c`, the raw name `IP` wins
      the normalised name `IP`, and its only column holds `b`. */
  lemma RepeatedHeaderWinner(row: RawRow)
    requires row == [("ip", Some("a")), ("IP", Some("b")), ("ip", Some("c"))]
    ensures WinsKey(row, 1) && IsLastWithKey(row, 1)
    ensures NormalizeKey(row[1].0) == "IP" && NormalizeValue(row[1].1) == "b"
  {
    assert row[0].0 == row[2].0;
  }

  /** A header that repeats a name: `ip,IP,ip` with cells `a,b,c`. The
      reader keeps `ip` first with its last cell `c`, then `IP` with `b`; the
      later item `IP` wins the normalised name, so the IP is `b`, not the
      last column's `c`. */
  lemma RepeatedHeaderName(row: RawRow)
    requires row == [("ip", Some("a")), ("IP", Some("b")), ("ip", Some("c"))]
    ensures Lookup(Normalize(row), "IP") == "b"
  {
    RepeatedHeaderWinner(row);
    NormalizeWinner(row, 1, 1);
  }

  /** Python's `mapping.get(key)` read as a string: absent counts as empty. */
  function Lookup(m: map<string, string>, key: string): string {
    if key in m then m[key] else ""
  }

  /** `v` is what an alias chain yields: empty exactly when every alias is
      absent or empty, and otherwise the value of the first alias whose value
      is non-empty. */
  predicate ChosenByPriority(m: map<string, string>, aliases: seq<string>, v: string) {
    && (v == "" <==> forall j :: 0 <= j < |aliases| ==> Lookup(m, aliases[j]) == "")
    && forall j :: 0 <= j < |aliases| && Lookup(m, aliases[j]) != ""
                   && (forall l :: 0 <= l < j ==> Lookup(m, aliases[l]) == "")
                   ==> v == Lookup(m, aliases[j])
  }

  /** The value of the first alias with a non-empty value, else empty: a
      present but empty alias falls through like an absent one. */
  function FirstNonEmpty(m: map<string, string>, aliases: seq<string>): (r: string)
    ensures ChosenByPriority(m, aliases, r)
  {
    if |aliases| == 0 then ""
    else if Lookup(m, aliases[0]) != "" then Lookup(m, aliases[0])
    else
      var r := FirstNonEmpty(m, aliases[1..]);
      assert forall j :: 1 <= j < |aliases| ==> aliases[1..][j - 1] == aliases[j];
      r
  }

  /** The three canonical fields of a row, before the IP check. */
  function Resolve(row: RawRow): (r: ServerRecord)
    ensures r.ip == "" <==> !HasIp(row)
    ensures ChosenByPriority(Normalize(row), IpAliases, r.ip)
    ensures ChosenByPriority(Normalize(row), AddressAliases, r.address)
    ensures ChosenByPriority(Normalize(row), PrivateKeyAliases, r.privateKey)
  {
    var m := Normalize(row);
    ServerRecord(FirstNonEmpty(m, IpAliases), FirstNonEmpty(m, AddressAliases), FirstNonEmpty(m, PrivateKeyAliases))
  }

  /** A row is kept when one of its IP aliases has a non-empty value. */
  predicate HasIp(row: RawRow) {
    exists j :: 0 <= j < |IpAliases| && Lookup(Normalize(row), IpAliases[j]) != ""
  }

  /** One row turned into a server record, or refused with the message the
      converter logs for it. */
  function ParseRow(row: RawRow, rowNum: nat): (r: Result<ServerRecord, string>)
    ensures r.Success? <==> HasIp(row)
    ensures r.Success? ==> r.value.ip != "" && r.value == Resolve(row)
    ensures r.Failure? ==> r.error == "Row " + NatToString(rowNum) + ": IP address is missing"
  {
    var rec := Resolve(row);
    if rec.ip == "" then Failure("Row " + NatToString(rowNum) + ": IP address is missing")
    else Success(rec)
  }

  /** The IP alias chain spelled out: `IP` beats every other alias, and each
      later alias is used only when all earlier ones are empty or absent. */
  lemma IpPriority(m: map<string, string>)
    ensures var ip := FirstNonEmpty(m, IpAliases);
            && (Lookup(m, "IP") != "" ==> ip == Lookup(m, "IP"))
            && (Lookup(m, "IP") == "" && Lookup(m, "IP_ADDRESS") != "" ==> ip == Lookup(m, "IP_ADDRESS"))
            && (Lookup(m, "IP") == "" && Lookup(m, "IP_ADDRESS") == "" && Lookup(m, "SERVER_IP") != ""
                ==> ip == Lookup(m, "SERVER_IP"))
            && (Lookup(m, "IP") == "" && Lookup(m, "IP_ADDRESS") == "" && Lookup(m, "SERVER_IP") == ""
                ==> ip == Lookup(m, "HOST"))
  {
    assert IpAliases[0] == "IP" && IpAliases[1] == "IP_ADDRESS";
    assert IpAliases[2] == "SERVER_IP" && IpAliases[3] == "HOST";
  }

  /** The outcome of every record, in order; records are counted from 2 for
      the first one after the header, which need not be its line in the
      file. */
  function ParseAll(rows: seq<RawRow>): (results: seq<Result<ServerRecord, string>>)
    ensures |results| == |rows|
  {
    seq(|rows|, i requires 0 <= i < |rows| => ParseRow(rows[i], i + 2))
  }

  /** The records of the successful outcomes, in order; failures are skipped. */
  function Kept(results: seq<Result<ServerRecord, string>>): (servers: seq<ServerRecord>)
    ensures |servers| <= |results|
    decreases |results|
  {
    if |results| == 0 then []
    else
      var init := Kept(results[..|results| - 1]);
      match results[|results| - 1]
      case Success(server) => init + [server]
      case Failure(_) => init
  }

  /** The servers of a batch of rows: the accepted records in input order. */
  function Accepted(rows: seq<RawRow>): seq<ServerRecord> {
    Kept(ParseAll(rows))
  }

  /** The batch loop of the converter: every row is parsed, in order, and a
      refused row is skipped without stopping the batch. */
  method CollectServers(rows: seq<RawRow>) returns (servers: seq<ServerRecord>)
    ensures servers == Accepted(rows)
  {
    var results := ParseAll(rows);
    servers := KeepSuccesses(results);
  }

  /** The loop that gathers the records of the successful outcomes. */
  method KeepSuccesses(results: seq<Result<ServerRecord, string>>) returns (servers: seq<ServerRecord>)
    ensures servers == Kept(results)
  {
    servers := [];
    var i := 0;
    while i < |results|
      invariant 0 <= i <= |results|
      invariant servers == Kept(results[..i])
    {
      assert results[..i + 1][..i] == results[..i];
      if results[i].Success? {
        servers := servers + [results[i].value];
      }
      i := i + 1;
    }
    assert results[..i] == results;
  }

  /** Keeping is compositional: the records of a batch are those of its first
      part followed by those of the rest, so no outcome affects another. */
  lemma {:induction false} KeptAppend(a: seq<Result<ServerRecord, string>>, b: seq<Result<ServerRecord, string>>)
    ensures Kept(a + b) == Kept(a) + Kept(b)
    decreases |b|
  {
    if |b| == 0 {
      assert a + b == a;
    } else {
      var ab := a + b;
      assert ab[..|ab| - 1] == a + b[..|b| - 1];
      KeptAppend(a, b[..|b| - 1]);
    }
  }

  /** The positions of the successful outcomes, in increasing order. */
  function SuccessIndices(results: seq<Result<ServerRecord, string>>): (idx: seq<nat>)
    ensures forall k :: 0 <= k < |idx| ==> idx[k] < |results| && results[idx[k]].Success?
    ensures forall k, l :: 0 <= k < l < |idx| ==> idx[k] < idx[l]
    ensures forall i :: 0 <= i < |results| && results[i].Success? ==> i in idx
    decreases |results|
  {
    if |results| == 0 then []
    else
      var init := results[..|results| - 1];
      var idx := SuccessIndices(init);
      assert forall i :: 0 <= i < |init| ==> init[i] == results[i];
      if results[|results| - 1].Success? then idx + [|results| - 1] else idx
  }

  /** `Kept` is a filter-map: one record per success, taken from it, in order. */
  lemma {:induction false} KeptIsFilterMap(results: seq<Result<ServerRecord, string>>)
    ensures |Kept(results)| == |SuccessIndices(results)|
    ensures forall k :: 0 <= k < |Kept(results)| ==> Kept(results)[k] == results[SuccessIndices(results)[k]].value
    decreases |results|
  {
    if |results| > 0 {
      var init := results[..|results| - 1];
      var last := results[|results| - 1];
      KeptIsFilterMap(init);
      var kept, idx := Kept(init), SuccessIndices(init);
      forall k | 0 <= k < |kept|
        ensures kept[k] == results[idx[k]].value
      {
        assert init[idx[k]] == results[idx[k]];
      }
      if last.Success? {
        assert Kept(results) == kept + [last.value];
        assert SuccessIndices(results) == idx + [|results| - 1];
      } else {
        assert Kept(results) == kept;
        assert SuccessIndices(results) == idx;
      }
    }
  }

  /** Nothing is kept exactly when every outcome is a failure. */
  lemma {:induction false} KeptEmpty(results: seq<Result<ServerRecord, string>>)
    ensures Kept(results) == [] <==> forall i :: 0 <= i < |results| ==> results[i].Failure?
    decreases |results|
  {
    if |results| > 0 {
      var init := results[..|results| - 1];
      KeptEmpty(init);
      assert forall i :: 0 <= i < |init| ==> init[i] == results[i];
    }
  }

  /** The outcome of one row of a batch: kept exactly when it has an IP, and
      then its resolved record. */
  lemma RowOutcome(rows: seq<RawRow>, i: nat)
    requires i < |rows|
    ensures ParseAll(rows)[i].Success? <==> HasIp(rows[i])
    ensures ParseAll(rows)[i].Success? ==> ParseAll(rows)[i].value == Resolve(rows[i])
  {
    var r := ParseRow(rows[i], i + 2);
    assert ParseAll(rows)[i] == r;
  }

  /** The servers of a batch are the records of the rows that have an IP,
      each resolved from its own row, in the rows' order. */
  lemma AcceptedIsFilterMap(rows: seq<RawRow>)
    ensures var idx := SuccessIndices(ParseAll(rows));
            && |Accepted(rows)| == |idx|
            && (forall k :: 0 <= k < |idx| ==> Accepted(rows)[k] == Resolve(rows[idx[k]]))
            && (forall k :: 0 <= k < |idx| ==> HasIp(rows[idx[k]]))
            && (forall i :: 0 <= i < |rows| && HasIp(rows[i]) ==> i in idx)
  {
    var results := ParseAll(rows);
    var idx := SuccessIndices(results);
    KeptIsFilterMap(results);
    forall k | 0 <= k < |idx|
      ensures Accepted(rows)[k] == Resolve(rows[idx[k]]) && HasIp(rows[idx[k]])
    {
      RowOutcome(rows, idx[k]);
    }
    forall i | 0 <= i < |rows| && HasIp(rows[i])
      ensures i in idx
    {
      RowOutcome(rows, i);
    }
  }

  /** A batch yields no server exactly when no row has an IP. */
  lemma AcceptedEmpty(rows: seq<RawRow>)
    ensures Accepted(rows) == [] <==> forall i :: 0 <= i < |rows| ==> !HasIp(rows[i])
  {
    var results := ParseAll(rows);
    KeptEmpty(results);
    forall i | 0 <= i < |rows|
      ensures results[i].Failure? <==> !HasIp(rows[i])
    {
      RowOutcome(rows, i);
    }
  }

  /** The inventory group every server belongs to. */
  const GroupHeader := "[aztec_nodes]"

  /** A secret-bearing field as written: base64 of its UTF-8 octets, so that
      the consumer never reads a hexadecimal-looking value as a number. */
  function Encoded(field: string): (e: string)
    ensures Base64.Decode(e) == Some(Utf8.Encode(field))
    ensures e == "" <==> field == ""
  {
    var octets := Utf8.Encode(field);
    Base64.DecodeEncode(octets);
    Base64.EncodeEmpty(octets);
    Base64.Encode(octets)
  }

  /** The six tokens of the inventory line of the `i`-th server (counting
      from 1): its name, its IP as connection target, the fixed SSH user, its
      IP again, and the two encoded secret-bearing fields. */
  function NodeTokens(i: nat, server: ServerRecord): (tokens: seq<string>)
    ensures |tokens| == 6
  {
    ["node" + NatToString(i), "ansible_host=" + server.ip, "ansible_ssh_user=ubuntu",
     "server_ip=" + server.ip, "eth_address_b64=" + Encoded(server.address),
     "validator_private_key_b64=" + Encoded(server.privateKey)]
  }

  /** The tokens of server `i` identify it: the name is `node` followed by a
      numeral that reads back as `i`, and the last two tokens decode back to
      the server's address and private key. */
  lemma NodeTokensReadBack(i: nat, server: ServerRecord)
    ensures var tokens := NodeTokens(i, server);
            && StripPrefix(tokens[0], "node") == Some(NatToString(i))
            && ParseNat(NatToString(i)) == Some(i)
            && DecodeField(tokens[4], "eth_address_b64=") == Some(server.address)
            && DecodeField(tokens[5], "validator_private_key_b64=") == Some(server.privateKey)
  {
    StripPrefixOf("node", NatToString(i));
    ParseNatToString(i);
    DecodeFieldEncoded("eth_address_b64=", server.address);
    DecodeFieldEncoded("validator_private_key_b64=", server.privateKey);
  }

  /** The inventory line of the `i`-th server: its tokens separated by single
      blanks. */
  function NodeLine(i: nat, server: ServerRecord): (line: string)
    ensures '\n' !in server.ip ==> '\n' !in line
  {
    var tokens := NodeTokens(i, server);
    assert '\n' !in server.ip ==> '\n' !in Join(tokens, ' ') by {
      if '\n' !in server.ip {
        EncodedHasNoSeparator(server.address);
        EncodedHasNoSeparator(server.privateKey);
        TokensHaveNoNewline(i, server.ip, Encoded(server.address), Encoded(server.privateKey));
      }
    }
    Join(tokens, ' ')
  }

  /** For an IP without a blank, the line of server `i` splits at blanks into
      exactly its six tokens. */
  lemma NodeLineSplits(i: nat, server: ServerRecord)
    requires ' ' !in server.ip
    ensures Split(NodeLine(i, server), ' ') == NodeTokens(i, server)
  {
    EncodedHasNoSeparator(server.address);
    EncodedHasNoSeparator(server.privateKey);
    SplitTokens(i, server.ip, Encoded(server.address), Encoded(server.privateKey));
  }

  /** The six tokens of a server line, for any token values without a blank,
      come back from splitting their join at blanks. */
  lemma SplitTokens(id: nat, ip: string, address64: string, key64: string)
    requires ' ' !in ip && ' ' !in address64 && ' ' !in key64
    ensures var t := ["node" + NatToString(id), "ansible_host=" + ip, "ansible_ssh_user=ubuntu",
                      "server_ip=" + ip, "eth_address_b64=" + address64,
                      "validator_private_key_b64=" + key64];
            Split(Join(t, ' '), ' ') == t
  {
    var t := ["node" + NatToString(id), "ansible_host=" + ip, "ansible_ssh_user=ubuntu",
              "server_ip=" + ip, "eth_address_b64=" + address64, "validator_private_key_b64=" + key64];
    NumeralHasNoSeparator(id);
    assert forall j :: 0 <= j < |t| ==> ' ' !in t[j];
    SplitJoin(t, ' ');
  }

  /** The lines of `servers`, numbered from `first`. */
  function NodeLines(servers: seq<ServerRecord>, first: nat): (lines: seq<string>)
    ensures |lines| == |servers|
    ensures forall k :: 0 <= k < |servers| ==> lines[k] == NodeLine(first + k, servers[k])
    decreases |servers|
  {
    if |servers| == 0 then [] else [NodeLine(first, servers[0])] + NodeLines(servers[1..], first + 1)
  }

  /** The inventory file: the group header, then one line per server in
      order, numbered from 1; every line ends in a newline. */
  function RenderInventory(servers: seq<ServerRecord>): (text: string)
    ensures |text| > |GroupHeader| && text[..|GroupHeader| + 1] == GroupHeader + "\n"
    ensures text[|text| - 1] == '\n'
  {
    var lines := [GroupHeader] + NodeLines(servers, 1);
    UnlinesIsJoin(lines);
    assert Unlines(lines) == GroupHeader + "\n" + Unlines(lines[1..]);
    Unlines(lines)
  }

  /** The lines of the variables file: fixed connection defaults, endpoints
      and timeouts. The file is `Unlines(VarsLines)`. */
  const VarsLines: seq<string> := [
    "---",
    "# Ansible connection settings",
    "ansible_ssh_user: ubuntu",
    "ansible_python_interpreter: /usr/bin/python3",
    "ansible_ssh_common_args: '-o StrictHostKeyChecking=no'",
    "",
    "# Common L1 RPC settings for all servers",
    "l1_rpc_url: 'http://65.109.116.87:8545'",
    "l1_consensus_url: 'http://65.109.116.87:5052'",
    "",
    "# Timeouts and retries",
    "ansible_timeout: 300",
    "install_timeout: 1800"]

  /** The variables file and every node line name the same SSH user. */
  lemma VarsFileAgreesWithInventory(i: nat, server: ServerRecord)
    ensures exists k :: 0 <= k < |VarsLines| && VarsLines[k] == "ansible_ssh_user: ubuntu"
    ensures NodeTokens(i, server)[2] == "ansible_ssh_user=ubuntu"
  {
    assert VarsLines[2] == "ansible_ssh_user: ubuntu";
  }

  /** The two files of a successful conversion: the inventory text, and the
      lines of the variables file, which is written as `Unlines(varsLines)`. */
  datatype Artifacts = Artifacts(inventory: string, varsLines: seq<string>)

  /** The conversion after the CSV has been read: the batch loop, the refusal
      of a batch without any valid server, and the text of both files. */
  method Convert(rows: seq<RawRow>) returns (r: Result<Artifacts, string>)
    ensures r.Failure? <==> forall i :: 0 <= i < |rows| ==> !HasIp(rows[i])
    ensures r.Failure? ==> r.error == "No valid servers found in CSV file"
    ensures r.Success? ==> r.value == Artifacts(RenderInventory(Accepted(rows)), VarsLines)
  {
    var servers := CollectServers(rows);
    AcceptedEmpty(rows);
    if |servers| == 0 {
      return Failure("No valid servers found in CSV file");
    }
    return Success(Artifacts(RenderInventory(servers), VarsLines));
  }

  /** What a reader of the inventory recovers from one server line. */
  datatype NodeEntry = NodeEntry(id: nat, host: string, user: string, serverIp: string,
                                 address: string, privateKey: string)

  /** The value of a `key=value` token whose value is base64 of UTF-8 text. */
  function DecodeField(token: string, key: string): Option<string> {
    var encoded :- StripPrefix(token, key);
    var octets :- Base64.Decode(encoded);
    Utf8.Decode(octets)
  }

  /** Reads a server line: six blank-separated tokens in the order written. */
  function ParseNodeLine(line: string): Option<NodeEntry> {
    var t := Split(line, ' ');
    if |t| != 6 then None else ParseNodeTokens(t)
  }

  /** Reads the six tokens of a server line, each behind its own key. */
  function ParseNodeTokens(t: seq<string>): Option<NodeEntry>
    requires |t| == 6
  {
    var idText :- StripPrefix(t[0], "node");
    var id :- ParseNat(idText);
    var host :- StripPrefix(t[1], "ansible_host=");
    var user :- StripPrefix(t[2], "ansible_ssh_user=");
    var serverIp :- StripPrefix(t[3], "server_ip=");
    var address :- DecodeField(t[4], "eth_address_b64=");
    var privateKey :- DecodeField(t[5], "validator_private_key_b64=");
    Some(NodeEntry(id, host, user, serverIp, address, privateKey))
  }

  /** Reads server lines: every line must read as an entry. */
  function ParseNodeLines(lines: seq<string>): (r: Option<seq<NodeEntry>>)
    ensures r.Some? <==> forall k :: 0 <= k < |lines| ==> ParseNodeLine(lines[k]).Some?
    ensures r.Some? ==> |r.value| == |lines|
                        && forall k :: 0 <= k < |lines| ==> Some(r.value[k]) == ParseNodeLine(lines[k])
  {
    if forall k | 0 <= k < |lines| :: ParseNodeLine(lines[k]).Some? then
      Some(seq(|lines|, k requires 0 <= k < |lines| => ParseNodeLine(lines[k]).value))
    else
      None
  }

  /** Reads an inventory file back: its header line, then its server lines. */
  function ParseInventory(text: string): Option<seq<NodeEntry>> {
    var lines :- Lines(text);
    if |lines| == 0 || lines[0] != GroupHeader then None else ParseNodeLines(lines[1..])
  }

  /** What the line of the `i`-th server must read back as. */
  function EntryOf(i: nat, server: ServerRecord): NodeEntry {
    NodeEntry(i, server.ip, "ubuntu", server.ip, server.address, server.privateKey)
  }

  /** The entries an inventory should read back as: the servers in order,
      numbered from `first`. */
  function Entries(servers: seq<ServerRecord>, first: nat): (entries: seq<NodeEntry>)
    ensures |entries| == |servers|
    ensures forall k :: 0 <= k < |servers| ==> entries[k] == EntryOf(first + k, servers[k])
  {
    seq(|servers|, k requires 0 <= k < |servers| => EntryOf(first + k, servers[k]))
  }

  /** Encoded fields and decimal numerals hold neither blanks nor newlines. */
  lemma EncodedHasNoSeparator(field: string)
    ensures ' ' !in Encoded(field) && '\n' !in Encoded(field)
  {
    var e := Encoded(field);
    assert forall k :: 0 <= k < |e| ==> e[k] != ' ' && e[k] != '\n';
  }

  lemma NumeralHasNoSeparator(n: nat)
    ensures ' ' !in NatToString(n) && '\n' !in NatToString(n)
  {
    var d := NatToString(n);
    assert forall k :: 0 <= k < |d| ==> d[k] != ' ' && d[k] != '\n';
  }

  lemma StripPrefixOf(prefix: string, rest: string)
    ensures StripPrefix(prefix + rest, prefix) == Some(rest)
  {
    assert (prefix + rest)[..|prefix|] == prefix;
    assert (prefix + rest)[|prefix|..] == rest;
  }

  lemma DecodeFieldEncoded(key: string, field: string)
    ensures DecodeField(key + Encoded(field), key) == Some(field)
  {
    StripPrefixOf(key, Encoded(field));
    Base64.DecodeEncodeText(field);
  }

  /** Reading a line made of the six tokens, for any token values that hold
      no blank. */
  lemma ParseTokens(id: nat, ip: string, address64: string, key64: string, address: string, key: string)
    requires ' ' !in ip && ' ' !in address64 && ' ' !in key64
    requires DecodeField("eth_address_b64=" + address64, "eth_address_b64=") == Some(address)
    requires DecodeField("validator_private_key_b64=" + key64, "validator_private_key_b64=") == Some(key)
    ensures ParseNodeLine(Join(["node" + NatToString(id), "ansible_host=" + ip, "ansible_ssh_user=ubuntu",
                                "server_ip=" + ip, "eth_address_b64=" + address64,
                                "validator_private_key_b64=" + key64], ' '))
            == Some(NodeEntry(id, ip, "ubuntu", ip, address, key))
  {
    SplitTokens(id, ip, address64, key64);
    ParseFieldTokens(id, ip, address64, key64, address, key);
  }

  lemma ParseFieldTokens(id: nat, ip: string, address64: string, key64: string, address: string, key: string)
    requires DecodeField("eth_address_b64=" + address64, "eth_address_b64=") == Some(address)
    requires DecodeField("validator_private_key_b64=" + key64, "validator_private_key_b64=") == Some(key)
    ensures ParseNodeTokens(["node" + NatToString(id), "ansible_host=" + ip, "ansible_ssh_user=ubuntu",
                             "server_ip=" + ip, "eth_address_b64=" + address64,
                             "validator_private_key_b64=" + key64])
            == Some(NodeEntry(id, ip, "ubuntu", ip, address, key))
  {
    StripPrefixOf("node", NatToString(id));
    ParseNatToString(id);
    StripPrefixOf("ansible_host=", ip);
    StripPrefixOf("ansible_ssh_user=", "ubuntu");
    StripPrefixOf("server_ip=", ip);
  }

  /** A server line reads back as the server's number, its IP in both host
      fields, the fixed user `ubuntu`, and the address and private key
      exactly, empty ones included. An IP containing a blank would split
      into extra tokens, since the line does not quote it. */
  lemma ParseNodeLineRoundTrip(i: nat, server: ServerRecord)
    requires ' ' !in server.ip
    ensures ParseNodeLine(NodeLine(i, server)) == Some(EntryOf(i, server))
  {
    EncodedHasNoSeparator(server.address);
    EncodedHasNoSeparator(server.privateKey);
    DecodeFieldEncoded("eth_address_b64=", server.address);
    DecodeFieldEncoded("validator_private_key_b64=", server.privateKey);
    ParseTokens(i, server.ip, Encoded(server.address), Encoded(server.privateKey), server.address, server.privateKey);
  }

  /** Consecutive server lines read back as consecutive entries. */
  lemma {:induction false} ParseNodeLinesRoundTrip(servers: seq<ServerRecord>, first: nat)
    requires forall k :: 0 <= k < |servers| ==> ' ' !in servers[k].ip
    ensures ParseNodeLines(NodeLines(servers, first)) == Some(Entries(servers, first))
  {
    NodeLinesReadBack(servers, first);
    ParseNodeLinesEach(NodeLines(servers, first), Entries(servers, first));
  }

  lemma {:induction false} NodeLinesReadBack(servers: seq<ServerRecord>, first: nat)
    requires forall k :: 0 <= k < |servers| ==> ' ' !in servers[k].ip
    ensures forall k :: 0 <= k < |servers|
                        ==> ParseNodeLine(NodeLines(servers, first)[k]) == Some(Entries(servers, first)[k])
  {
    forall k | 0 <= k < |servers|
      ensures ParseNodeLine(NodeLines(servers, first)[k]) == Some(Entries(servers, first)[k])
    {
      ParseNodeLineRoundTrip(first + k, servers[k]);
    }
  }

  /** Lines each of which reads back as an entry read back as the sequence of
      those entries. */
  lemma ParseNodeLinesEach(lines: seq<string>, entries: seq<NodeEntry>)
    requires |lines| == |entries|
    requires forall k :: 0 <= k < |lines| ==> ParseNodeLine(lines[k]) == Some(entries[k])
    ensures ParseNodeLines(lines) == Some(entries)
  {
    var r := ParseNodeLines(lines);
    assert r.Some?;
    assert forall k :: 0 <= k < |lines| ==> r.value[k] == entries[k];
    assert r.value == entries;
  }

  /** No server line holds a newline when no IP does. */
  lemma NodeLinesSeparated(servers: seq<ServerRecord>, first: nat)
    requires forall k :: 0 <= k < |servers| ==> '\n' !in servers[k].ip
    ensures forall k :: 0 <= k < |servers| ==> '\n' !in NodeLines(servers, first)[k]
  {
    forall k | 0 <= k < |servers|
      ensures '\n' !in NodeLines(servers, first)[k]
    {
      assert NodeLines(servers, first)[k] == NodeLine(first + k, servers[k]);
    }
  }

  lemma TokensHaveNoNewline(id: nat, ip: string, address64: string, key64: string)
    requires '\n' !in ip && '\n' !in address64 && '\n' !in key64
    ensures '\n' !in Join(["node" + NatToString(id), "ansible_host=" + ip, "ansible_ssh_user=ubuntu",
                           "server_ip=" + ip, "eth_address_b64=" + address64,
                           "validator_private_key_b64=" + key64], ' ')
  {
    var t := ["node" + NatToString(id), "ansible_host=" + ip, "ansible_ssh_user=ubuntu",
              "server_ip=" + ip, "eth_address_b64=" + address64, "validator_private_key_b64=" + key64];
    NumeralHasNoSeparator(id);
    assert forall j :: 0 <= j < |t| ==> '\n' !in t[j];
    JoinAvoids(t, ' ', '\n');
  }

  /** A header line followed by newline-free lines reads back as written. */
  lemma HeaderAndBody(body: seq<string>)
    requires forall k :: 0 <= k < |body| ==> '\n' !in body[k]
    ensures Lines(Unlines([GroupHeader] + body)) == Some([GroupHeader] + body)
  {
    var lines := [GroupHeader] + body;
    forall k | 0 <= k < |lines|
      ensures '\n' !in lines[k]
    {
      if k > 0 {
        assert lines[k] == body[k - 1];
      }
    }
    LinesUnlines(lines);
  }

  /** The inventory has 1 + n lines: the group header, then for each
      position i from 1 to n the line of the i-th accepted server, numbered
      i whatever rows were refused before it. */
  lemma InventoryLayout(servers: seq<ServerRecord>)
    requires forall k :: 0 <= k < |servers| ==> '\n' !in servers[k].ip
    ensures var lines := Lines(RenderInventory(servers));
            && lines.Some?
            && |lines.value| == |servers| + 1
            && lines.value[0] == GroupHeader
            && forall i :: 1 <= i <= |servers| ==> lines.value[i] == NodeLine(i, servers[i - 1])
  {
    var body := NodeLines(servers, 1);
    NodeLinesSeparated(servers, 1);
    HeaderAndBody(body);
    var lines := [GroupHeader] + body;
    assert forall i :: 1 <= i <= |servers| ==> lines[i] == body[i - 1];
  }

  /** Reading the inventory back gives, for n servers, the entries numbered
      1 to n in order, each with its server's IP as host and server IP, the
      user `ubuntu`, and its address and private key decoded exactly. */
  lemma InventoryRoundTrip(servers: seq<ServerRecord>)
    requires forall k :: 0 <= k < |servers| ==> ' ' !in servers[k].ip && '\n' !in servers[k].ip
    ensures ParseInventory(RenderInventory(servers))
            == Some(Entries(servers, 1))
  {
    var body := NodeLines(servers, 1);
    NodeLinesSeparated(servers, 1);
    HeaderAndBody(body);
    var lines := [GroupHeader] + body;
    assert lines[1..] == body;
    ParseNodeLinesRoundTrip(servers, 1);
  }
}

=== FILE: parse_proof.dfy ===
/** The extractor of `GetProof.sh` output: it looks for the block number and
    the proof in the script's text and reports them with a status and an error
    message. Each regular-expression search is modelled as an explicit scan
    that tries every start position from the left and stops at the first one
    where the whole pattern matches. */
module ParseProof {
  import opened Wrappers
  import opened Strings

  /** The four fields of the extractor's result. */
  datatype ProofResult = ProofResult(blockNumber: string, proof: string, status: string, error: string)

  /** The placeholder of a field that was not found. */
  const NotAvailable: string := "N/A"
  const Success: string := "SUCCESS"
  const Error: string := "ERROR"
  const EmptyOutputError: string := "Empty output from GetProof.sh"

  /** The literal parts of the two patterns: "Block number:" in Russian, as
      the script prints it, and the proof label. */
  const BlockLabel: string := "Номер блока:"
  const ProofLabel: string := "Proof:"

  predicate LabelAt(s: string, p: nat, word: string) {
    p + |word| <= |s| && s[p..p + |word|] == word
  }

  /** The end of the run of digits that starts at `i`. */
  function SkipDigits(s: string, i: nat): (j: nat)
    requires i <= |s|
    ensures i <= j <= |s|
    ensures forall k :: i <= k < j ==> IsDigit(s[k])
    ensures j == |s| || !IsDigit(s[j])
    decreases |s| - i
  {
    if i == |s| || !IsDigit(s[i]) then i else SkipDigits(s, i + 1)
  }

  /** The group captured by `Номер блока:\s*(\d+)` when the match starts at
      `p`. The greedy whitespace has nothing to give back to the digits, so
      the pattern matches exactly when the first non-blank after the label is
      a digit, and the group is the whole run of digits there. */
  function BlockMatchAt(s: string, p: nat): (r: Option<string>)
    ensures r.Some? ==> r.value != [] && AllDigits(r.value)
  {
    if !LabelAt(s, p, BlockLabel) then None
    else
      var q := SkipSpaces(s, p + |BlockLabel|);
      if q < |s| && IsDigit(s[q]) then Some(s[q..SkipDigits(s, q)]) else None
  }

  /** The group captured by `Proof:\s*(.+)`, where `.` also matches a newline,
      when the match starts at `p`. The greedy whitespace normally leaves the
      group to start at the first non-blank and run to the end of the text;
      when nothing but whitespace follows the label, it gives back its last
      character so that the group is not empty. */
  function ProofMatchAt(s: string, p: nat): (r: Option<string>)
    ensures r.Some? <==> LabelAt(s, p, ProofLabel) && p + |ProofLabel| < |s|
    ensures r.Some? ==> r.value != [] && |r.value| <= |s| - p - |ProofLabel| && r.value == s[|s| - |r.value|..]
  {
    if !LabelAt(s, p, ProofLabel) then None
    else
      var q := SkipSpaces(s, p + |ProofLabel|);
      if q < |s| then Some(s[q..])
      else if q > p + |ProofLabel| then Some(s[q - 1..])
      else None
  }

  datatype Pattern = BlockNumberPattern | ProofPattern

  function MatchAt(pattern: Pattern, s: string, p: nat): Option<string> {
    match pattern
    case BlockNumberPattern => BlockMatchAt(s, p)
    case ProofPattern => ProofMatchAt(s, p)
  }

  /** A successful search: where the match starts and what its group holds. */
  datatype Match = Match(start: nat, group: string)

  /** `re.search`: the leftmost start position at or after `from` where the
      pattern matches. */
  function Search(pattern: Pattern, s: string, from: nat): (r: Option<Match>)
    ensures r.Some? ==> from <= r.value.start <= |s| && MatchAt(pattern, s, r.value.start) == Some(r.value.group)
    ensures forall p :: from <= p <= |s| && (r.None? || p < r.value.start) ==> MatchAt(pattern, s, p).None?
    decreases |s| + 1 - from
  {
    if from > |s| then None
    else
      match MatchAt(pattern, s, from)
      case Some(group) => Some(Match(from, group))
      case None => Search(pattern, s, from + 1)
  }

  /** The error reported when a field is missing; the proof is only said to be
      found or missing. */
  function MissingDataError(blockNumber: string, proofFound: bool): string {
    "Missing data - Block: " + blockNumber + ", Proof: " + (if proofFound then "Found" else "Missing")
  }

  /** The block number: the group of the first match, or "N/A". */
  function BlockNumberField(output: string): (b: string)
    ensures b == NotAvailable || (b != [] && AllDigits(b))
  {
    match Search(BlockNumberPattern, output, 0)
    case Some(m) => m.group
    case None => NotAvailable
  }

  /** The proof: the group of the first match, trimmed and without any
      whitespace, or "N/A". */
  function ProofField(output: string): (proof: string)
    ensures NoSpace(proof)
  {
    match Search(ProofPattern, output, 0)
    case Some(m) => RemoveWhitespace(Strip(m.group))
    case None => NotAvailable
  }

  /** Extracts the block number and the proof from the script's output. */
  function ParseProofOutput(output: string): (r: ProofResult)
    ensures r.status == Success || r.status == Error
    ensures r.status == Success <==> r.blockNumber != NotAvailable && r.proof != NotAvailable
    ensures r.status == Success ==> r.error == ""
    ensures AllSpace(output) ==> r == ProofResult(NotAvailable, NotAvailable, Error, EmptyOutputError)
    ensures !AllSpace(output) ==> r.blockNumber == BlockNumberField(output) && r.proof == ProofField(output)
    ensures !AllSpace(output) && r.status == Error
            ==> r.error == MissingDataError(r.blockNumber, r.proof != NotAvailable)
    ensures r.blockNumber == NotAvailable || (r.blockNumber != [] && AllDigits(r.blockNumber))
    ensures NoSpace(r.proof)
  {
    if |output| == 0 || Strip(output) == [] then
      ProofResult(NotAvailable, NotAvailable, Error, EmptyOutputError)
    else
      var blockNumber := BlockNumberField(output);
      var proof := ProofField(output);
      if blockNumber != NotAvailable && proof != NotAvailable then
        ProofResult(blockNumber, proof, Success, "")
      else
        ProofResult(blockNumber, proof, Error, MissingDataError(blockNumber, proof != NotAvailable))
  }

  /** The block-number pattern read directly: the label at `p`, whitespace up
      to `q`, then the run of digits `b`, which no further digit follows. */
  predicate BlockNumberAt(s: string, p: nat, q: nat, b: string) {
    && LabelAt(s, p, BlockLabel)
    && p + |BlockLabel| <= q
    && q + |b| <= |s|
    && (forall k :: p + |BlockLabel| <= k < q ==> IsSpace(s[k]))
    && s[q..q + |b|] == b
    && b != [] && AllDigits(b)
    && (q + |b| == |s| || !IsDigit(s[q + |b|]))
  }

  /** The leftmost occurrence of the block-number pattern. */
  ghost predicate FirstBlockNumber(s: string, p: nat, q: nat, b: string) {
    && BlockNumberAt(s, p, q, b)
    && forall p': nat, q': nat, b': string :: p' < p ==> !BlockNumberAt(s, p', q', b')
  }

  /** A proof label with at least one character after it. */
  predicate ProofAt(s: string, p: nat) {
    LabelAt(s, p, ProofLabel) && p + |ProofLabel| < |s|
  }

  /** The leftmost proof label with at least one character after it. */
  ghost predicate FirstProof(s: string, p: nat) {
    ProofAt(s, p) && forall p': nat :: p' < p ==> !ProofAt(s, p')
  }

  lemma DigitIsNotSpace(c: char)
    requires IsDigit(c)
    ensures !IsSpace(c)
  {
  }

  /** Every match of the block-number scan is an occurrence of the pattern. */
  lemma BlockMatchAtSound(s: string, p: nat)
    requires BlockMatchAt(s, p).Some?
    ensures BlockNumberAt(s, p, SkipSpaces(s, p + |BlockLabel|), BlockMatchAt(s, p).value)
  {
  }

  /** Every occurrence of the pattern is what the scan finds there. */
  lemma BlockMatchAtComplete(s: string, p: nat, q: nat, b: string)
    requires BlockNumberAt(s, p, q, b)
    ensures BlockMatchAt(s, p) == Some(b)
  {
    var j := SkipSpaces(s, p + |BlockLabel|);
    assert s[q] == b[0];
    DigitIsNotSpace(s[q]);
    assert j == q;
    assert forall k :: q <= k < q + |b| ==> s[k] == b[k - q];
    SkipDigitsRun(s, q, |b|);
  }

  /** The digit scan stops exactly at the end of a maximal run of digits. */
  lemma SkipDigitsRun(s: string, q: nat, n: nat)
    requires q + n <= |s|
    requires forall k :: q <= k < q + n ==> IsDigit(s[k])
    requires q + n == |s| || !IsDigit(s[q + n])
    ensures SkipDigits(s, q) == q + n
  {
  }

  /** The block number reported is the digit run of the leftmost occurrence
      of the pattern. */
  lemma BlockNumberFound(output: string, p: nat, q: nat, b: string)
    requires FirstBlockNumber(output, p, q, b)
    ensures ParseProofOutput(output).blockNumber == b
  {
    assert output[p] == BlockLabel[0];
    BlockFieldFound(output, p, q, b);
  }

  lemma BlockFieldFound(output: string, p: nat, q: nat, b: string)
    requires FirstBlockNumber(output, p, q, b)
    ensures BlockNumberField(output) == b
  {
    BlockMatchAtComplete(output, p, q, b);
    assert MatchAt(BlockNumberPattern, output, p) == Some(b);
    var m := Search(BlockNumberPattern, output, 0);
    assert m.Some? && m.value.start <= p;
    if m.value.start < p {
      BlockMatchAtSound(output, m.value.start);
      assert false;
    }
  }

  /** Without an occurrence of the pattern the block number stays "N/A". */
  lemma BlockNumberMissing(output: string)
    requires forall p, q, b :: !BlockNumberAt(output, p, q, b)
    ensures ParseProofOutput(output).blockNumber == NotAvailable
  {
    var m := Search(BlockNumberPattern, output, 0);
    if !AllSpace(output) && m.Some? {
      BlockMatchAtSound(output, m.value.start);
      assert false;
    }
  }

  /** A reported block number always comes from the leftmost occurrence of
      the pattern. */
  lemma BlockNumberOrigin(output: string)
    requires ParseProofOutput(output).blockNumber != NotAvailable
    ensures exists p: nat, q: nat :: FirstBlockNumber(output, p, q, ParseProofOutput(output).blockNumber)
  {
    BlockFieldOrigin(output);
  }

  lemma BlockFieldOrigin(output: string)
    requires BlockNumberField(output) != NotAvailable
    ensures exists p: nat, q: nat :: FirstBlockNumber(output, p, q, BlockNumberField(output))
  {
    var m := Search(BlockNumberPattern, output, 0);
    var p := m.value.start;
    var q := SkipSpaces(output, p + |BlockLabel|);
    BlockMatchAtSound(output, p);
    assert forall p': nat :: p' < p ==> MatchAt(BlockNumberPattern, output, p').None?;
    forall p': nat, q': nat, b': string | p' < p
      ensures !BlockNumberAt(output, p', q', b')
    {
      assert MatchAt(BlockNumberPattern, output, p') == BlockMatchAt(output, p');
      if BlockNumberAt(output, p', q', b') {
        BlockMatchAtComplete(output, p', q', b');
      }
    }
    assert FirstBlockNumber(output, p, q, m.value.group);
  }

  /** Trimming the captured proof group and deleting its whitespace gives the
      whole text after the label without its whitespace, whichever way the
      group was cut. */
  lemma ProofGroupCleaned(s: string, p: nat)
    requires ProofMatchAt(s, p).Some?
    ensures RemoveWhitespace(Strip(ProofMatchAt(s, p).value)) == RemoveWhitespace(s[p + |ProofLabel|..])
  {
    var i := p + |ProofLabel|;
    var q := SkipSpaces(s, i);
    var g := ProofMatchAt(s, p).value;
    assert AllSpace(s[i..q]);
    if q < |s| {
      assert s[i..] == s[i..q] + g;
      RemoveWhitespaceAppend(s[i..q], g);
      RemoveWhitespaceStrip(g);
    } else {
      assert AllSpace(s[i..]);
      assert AllSpace(g);
    }
  }

  /** The proof reported is the text after the leftmost proof label that has
      something after it, with all whitespace deleted. */
  lemma ProofFound(output: string, p: nat)
    requires FirstProof(output, p)
    ensures ParseProofOutput(output).proof == RemoveWhitespace(output[p + |ProofLabel|..])
  {
    assert output[p] == ProofLabel[0];
    ProofFieldFound(output, p);
  }

  lemma ProofFieldFound(output: string, p: nat)
    requires FirstProof(output, p)
    ensures ProofField(output) == RemoveWhitespace(output[p + |ProofLabel|..])
  {
    assert MatchAt(ProofPattern, output, p).Some?;
    var m := Search(ProofPattern, output, 0);
    assert m.Some? && m.value.start <= p;
    assert MatchAt(ProofPattern, output, m.value.start).Some?;
    assert ProofAt(output, m.value.start);
    ProofGroupCleaned(output, p);
  }

  /** Without a proof label that has something after it the proof stays
      "N/A". */
  lemma ProofMissing(output: string)
    requires forall p: nat :: !ProofAt(output, p)
    ensures ParseProofOutput(output).proof == NotAvailable
  {
    var m := Search(ProofPattern, output, 0);
    if !AllSpace(output) && m.Some? {
      assert MatchAt(ProofPattern, output, m.value.start).Some?;
      assert ProofAt(output, m.value.start);
      assert false;
    }
  }

  /** A reported proof always comes from the leftmost proof label that has
      something after it. */
  lemma ProofOrigin(output: string)
    requires ParseProofOutput(output).proof != NotAvailable
    ensures exists p: nat :: FirstProof(output, p)
                             && ParseProofOutput(output).proof == RemoveWhitespace(output[p + |ProofLabel|..])
  {
    ProofFieldOrigin(output);
  }

  lemma ProofFieldOrigin(output: string)
    requires ProofField(output) != NotAvailable
    ensures exists p: nat :: FirstProof(output, p)
                             && ProofField(output) == RemoveWhitespace(output[p + |ProofLabel|..])
  {
    var m := Search(ProofPattern, output, 0);
    var p := m.value.start;
    assert MatchAt(ProofPattern, output, p).Some?;
    forall p': nat | p' < p
      ensures !ProofAt(output, p')
    {
      assert MatchAt(ProofPattern, output, p') == ProofMatchAt(output, p');
    }
    ProofGroupCleaned(output, p);
    assert ProofField(output) == RemoveWhitespace(Strip(m.value.group));
    assert FirstProof(output, p) && ProofField(output) == RemoveWhitespace(output[p + |ProofLabel|..]);
  }

  /** A proof label followed by nothing but whitespace yields an empty proof,
      which counts as found: the status then depends on the block number
      alone. */
  lemma BlankProofCountsAsFound(output: string, p: nat)
    requires FirstProof(output, p) && AllSpace(output[p + |ProofLabel|..])
    ensures var r := ParseProofOutput(output);
            && r.proof == ""
            && (r.status == Success <==> r.blockNumber != NotAvailable)
  {
    ProofFound(output, p);
  }

  /** A proof whose text is literally "N/A" is indistinguishable from a
      missing one: the result is an error that says the proof is missing. */
  lemma LiteralNotAvailableProof(output: string, p: nat)
    requires FirstProof(output, p) && RemoveWhitespace(output[p + |ProofLabel|..]) == NotAvailable
    ensures var r := ParseProofOutput(output);
            && r.status == Error
            && r.error == MissingDataError(r.blockNumber, false)
  {
    ProofFound(output, p);
    assert output[p] == ProofLabel[0];
  }
}

=== FILE: strings.dfy ===
/** Character classes and string functions shared by the CSV converter and
    the proof extractor. Strings are sequences of Unicode scalar values. */
module Strings {
  import opened Wrappers

  /** Python's whitespace (`str.isspace`, the default of `str.strip()` and the
      regular-expression class `\s` on text): tab through carriage return,
      the separators 0x1C-0x1F, space, NEL, no-break space and the Unicode
      space, line and paragraph separators. */
  predicate IsSpace(c: char) {
    var n := c as int;
    || n == 0x20
    || 0x09 <= n <= 0x0D
    || 0x1C <= n <= 0x1F
    || n == 0x85 || n == 0xA0 || n == 0x1680
    || 0x2000 <= n <= 0x200A
    || n == 0x2028 || n == 0x2029 || n == 0x202F || n == 0x205F || n == 0x3000
  }

  /** An ASCII decimal digit. */
  predicate IsDigit(c: char) {
    '0' <= c <= '9'
  }

  predicate AllSpace(s: string) {
    forall k :: 0 <= k < |s| ==> IsSpace(s[k])
  }

  predicate NoSpace(s: string) {
    forall k :: 0 <= k < |s| ==> !IsSpace(s[k])
  }

  predicate AllDigits(s: string) {
    forall k :: 0 <= k < |s| ==> IsDigit(s[k])
  }

  /** The end of the run of whitespace that starts at `i`. */
  function SkipSpaces(s: string, i: nat): (j: nat)
    requires i <= |s|
    ensures i <= j <= |s|
    ensures forall k :: i <= k < j ==> IsSpace(s[k])
    ensures j == |s| || !IsSpace(s[j])
    decreases |s| - i
  {
    if i == |s| || !IsSpace(s[i]) then i else SkipSpaces(s, i + 1)
  }

  /** The start of the run of whitespace that ends at `j`, going no further
      back than `i`. */
  function SkipSpacesBack(s: string, i: nat, j: nat): (e: nat)
    requires i <= j <= |s|
    ensures i <= e <= j
    ensures forall k :: e <= k < j ==> IsSpace(s[k])
    ensures e == i || !IsSpace(s[e - 1])
    decreases j
  {
    if j == i || !IsSpace(s[j - 1]) then j else SkipSpacesBack(s, i, j - 1)
  }

  /** Where `str.strip()` cuts `s`: after its leading whitespace, and before
      the trailing whitespace of what remains. */
  function StripStart(s: string): (i: nat)
    ensures i <= |s|
  {
    SkipSpaces(s, 0)
  }

  function StripEnd(s: string): (e: nat)
    ensures StripStart(s) <= e <= |s|
  {
    SkipSpacesBack(s, StripStart(s), |s|)
  }

  /** Python's `str.strip()`: the longest infix of `s` that neither starts nor
      ends with whitespace, everything around it being whitespace. */
  function Strip(s: string): (r: string)
    ensures r == [] <==> AllSpace(s)
    ensures r != [] ==> !IsSpace(r[0]) && !IsSpace(r[|r| - 1])
    ensures var i := StripStart(s);
            i + |r| <= |s| && r == s[i..i + |r|] && AllSpace(s[..i]) && AllSpace(s[i + |r|..])
  {
    var i := StripStart(s);
    var e := StripEnd(s);
    assert AllSpace(s) ==> i == |s|;
    s[i..e]
  }

  /** A text whose only non-blank part is `r`, found at `i`, deletes to what
      `r` deletes to, and is blank when `r` is. */
  lemma AllSpaceAround(s: string, i: nat, r: string)
    requires i + |r| <= |s| && r == s[i..i + |r|]
    requires AllSpace(s[..i]) && AllSpace(s[i + |r|..])
    ensures RemoveWhitespace(s) == RemoveWhitespace(r)
    ensures r == [] ==> AllSpace(s)
  {
    assert s == s[..i] + (r + s[i + |r|..]);
    RemoveWhitespaceAppend(s[..i], r + s[i + |r|..]);
    RemoveWhitespaceAppend(r, s[i + |r|..]);
    if r == [] {
      forall k | 0 <= k < |s|
        ensures IsSpace(s[k])
      {
        if k < i {
          assert s[k] == s[..i][k];
        } else {
          assert s[k] == s[i..][k - i];
        }
      }
    }
  }

  /** ASCII upper-casing of one character. */
  function UpperChar(c: char): char {
    if 'a' <= c <= 'z' then (c as int - 32) as char else c
  }

  /** Python's `str.upper()`, restricted to ASCII letters. */
  function ToUpper(s: string): (r: string)
    ensures |r| == |s|
    ensures forall k :: 0 <= k < |s| ==> r[k] == UpperChar(s[k])
  {
    seq(|s|, k requires 0 <= k < |s| => UpperChar(s[k]))
  }

  /** Two characters that are equal, or the same ASCII letter in lower and
      upper case. */
  predicate SameLetterIgnoringCase(c: char, d: char) {
    || c == d
    || ('a' <= c <= 'z' && d as int == c as int - 32)
    || ('a' <= d <= 'z' && c as int == d as int - 32)
  }

  /** Two texts that agree character by character up to the case of ASCII
      letters. */
  predicate SameIgnoringAsciiCase(a: string, b: string)
    decreases |a|
  {
    if |a| == 0 then |b| == 0
    else |b| > 0 && SameLetterIgnoringCase(a[0], b[0]) && SameIgnoringAsciiCase(a[1..], b[1..])
  }

  /** Upper-casing identifies exactly the texts that differ only in the case
      of ASCII letters. */
  lemma {:induction false} ToUpperIgnoresCase(a: string, b: string)
    ensures ToUpper(a) == ToUpper(b) <==> SameIgnoringAsciiCase(a, b)
    decreases |a|
  {
    if |a| > 0 && |b| > 0 {
      ToUpperIgnoresCase(a[1..], b[1..]);
      assert ToUpper(a) == [UpperChar(a[0])] + ToUpper(a[1..]);
      assert ToUpper(b) == [UpperChar(b[0])] + ToUpper(b[1..]);
    }
  }

  /** `s` with every whitespace character deleted, the rest kept in order. */
  function RemoveWhitespace(s: string): (r: string)
    ensures NoSpace(r) && |r| <= |s|
    ensures NoSpace(s) ==> r == s
    ensures AllSpace(s) ==> r == []
  {
    if |s| == 0 then ""
    else if IsSpace(s[0]) then RemoveWhitespace(s[1..])
    else [s[0]] + RemoveWhitespace(s[1..])
  }

  /** Deleting whitespace distributes over concatenation. */
  lemma {:induction false} RemoveWhitespaceAppend(a: string, b: string)
    ensures RemoveWhitespace(a + b) == RemoveWhitespace(a) + RemoveWhitespace(b)
    decreases |a|
  {
    if |a| > 0 {
      var ab := a + b;
      assert ab[0] == a[0];
      assert ab[1..] == a[1..] + b;
      RemoveWhitespaceAppend(a[1..], b);
      if !IsSpace(a[0]) {
        var x, y := RemoveWhitespace(a[1..]), RemoveWhitespace(b);
        assert [a[0]] + (x + y) == ([a[0]] + x) + y;
      }
    } else {
      assert a + b == b;
    }
  }

  /** Stripping first does not change which characters survive deletion of
      whitespace. */
  lemma RemoveWhitespaceStrip(s: string)
    ensures RemoveWhitespace(Strip(s)) == RemoveWhitespace(s)
  {
    AllSpaceAround(s, StripStart(s), Strip(s));
  }

  function DigitChar(d: int): (c: char)
    requires 0 <= d < 10
    ensures IsDigit(c)
  {
    ('0' as int + d) as char
  }

  function DigitValue(c: char): (d: nat)
    requires IsDigit(c)
    ensures d < 10 && DigitChar(d) == c
  {
    c as int - '0' as int
  }

  /** The number a string of decimal digits denotes. */
  function DigitsValue(s: string): nat
    requires AllDigits(s)
  {
    if |s| == 0 then 0 else 10 * DigitsValue(s[..|s| - 1]) + DigitValue(s[|s| - 1])
  }

  /** Python's `str(n)` for a natural number: its shortest decimal spelling. */
  function NatToString(n: nat): (r: string)
    ensures |r| >= 1 && AllDigits(r)
    ensures |r| > 1 ==> r[0] != '0'
    ensures DigitsValue(r) == n
    decreases n
  {
    if n < 10 then
      [DigitChar(n)]
    else
      var p := NatToString(n / 10);
      var r := p + [DigitChar(n % 10)];
      assert r[..|r| - 1] == p;
      r
  }

  /** Reads back a decimal spelling without superfluous leading zeros. */
  function ParseNat(s: string): (r: Option<nat>)
    ensures r.Some? <==> |s| >= 1 && AllDigits(s) && (|s| > 1 ==> s[0] != '0')
  {
    if |s| >= 1 && AllDigits(s) && (|s| > 1 ==> s[0] != '0') then Some(DigitsValue(s)) else None
  }

  /** Decimal spelling and reading are inverse, so distinct numbers are
      spelled differently. */
  lemma ParseNatToString(n: nat)
    ensures ParseNat(NatToString(n)) == Some(n)
  {
  }

  /** `s` without `prefix`, when it starts with it. */
  function StripPrefix(s: string, prefix: string): (r: Option<string>)
    ensures r.Some? <==> |prefix| <= |s| && s[..|prefix|] == prefix
    ensures r.Some? ==> s == prefix + r.value
  {
    if |prefix| <= |s| && s[..|prefix|] == prefix then
      assert s == prefix + s[|prefix|..];
      Some(s[|prefix|..])
    else
      None
  }

  /** The parts joined with one `sep` between neighbours. */
  function Join(parts: seq<string>, sep: char): string
  {
    if |parts| == 0 then ""
    else if |parts| == 1 then parts[0]
    else parts[0] + [sep] + Join(parts[1..], sep)
  }

  /** Joining adds no character but the separator. */
  lemma {:induction false} JoinAvoids(parts: seq<string>, sep: char, c: char)
    requires c != sep
    requires forall k :: 0 <= k < |parts| ==> c !in parts[k]
    ensures c !in Join(parts, sep)
    decreases |parts|
  {
    if |parts| > 1 {
      JoinAvoids(parts[1..], sep, c);
    }
  }

  /** The pieces of `s` between occurrences of `sep` (Python's `s.split(sep)`
      for a one-character separator). */
  function Split(s: string, sep: char): (r: seq<string>)
    ensures |r| >= 1
    ensures forall k :: 0 <= k < |r| ==> sep !in r[k]
  {
    if |s| == 0 then
      [""]
    else
      var rest := Split(s[1..], sep);
      if s[0] == sep then
        [""] + rest
      else
        [[s[0]] + rest[0]] + rest[1..]
  }

  /** Splitting a piece free of `sep` glued to the rest of a string. */
  lemma {:induction false} SplitPrefix(x: string, rest: string, sep: char)
    requires sep !in x
    ensures Split(x + rest, sep) == [x + Split(rest, sep)[0]] + Split(rest, sep)[1..]
    decreases |x|
  {
    if |x| > 0 {
      assert (x + rest)[1..] == x[1..] + rest;
      SplitPrefix(x[1..], rest, sep);
      assert [x[0]] + (x[1..] + Split(rest, sep)[0]) == x + Split(rest, sep)[0];
    } else {
      assert x + rest == rest;
      var r := Split(rest, sep);
      assert x + r[0] == r[0];
      assert r == [r[0]] + r[1..];
    }
  }

  /** Splitting undoes joining when no part contains the separator. */
  lemma {:induction false} SplitJoin(parts: seq<string>, sep: char)
    requires |parts| >= 1
    requires forall k :: 0 <= k < |parts| ==> sep !in parts[k]
    ensures Split(Join(parts, sep), sep) == parts
    decreases |parts|
  {
    if |parts| == 1 {
      SplitPrefix(parts[0], "", sep);
      assert parts[0] + "" == parts[0];
    } else {
      var tail := Join(parts[1..], sep);
      SplitJoin(parts[1..], sep);
      var s := [sep] + tail;
      assert s[1..] == tail;
      assert Split(s, sep) == [""] + parts[1..];
      assert Join(parts, sep) == parts[0] + s;
      SplitPrefix(parts[0], s, sep);
      assert parts[0] + "" == parts[0];
    }
  }

  /** The lines, each followed by a newline, as a sequence of `write` calls
      produces them. */
  function Unlines(lines: seq<string>): string
  {
    if |lines| == 0 then "" else lines[0] + "\n" + Unlines(lines[1..])
  }

  /** Terminated lines are the newline-joined lines plus one final newline. */
  lemma {:induction false} UnlinesIsJoin(lines: seq<string>)
    requires |lines| >= 1
    ensures Unlines(lines) == Join(lines, '\n') + "\n"
    decreases |lines|
  {
    if |lines| > 1 {
      UnlinesIsJoin(lines[1..]);
    }
  }

  /** The lines of a text whose every line ends in a newline; `None` for a
      text without a final newline. */
  function Lines(text: string): (r: Option<seq<string>>)
    ensures r.Some? ==> forall k :: 0 <= k < |r.value| ==> '\n' !in r.value[k]
  {
    if |text| == 0 then Some([])
    else if text[|text| - 1] != '\n' then None
    else Some(Split(text[..|text| - 1], '\n'))
  }

  /** Reading the lines back from terminated lines returns them. */
  lemma LinesUnlines(lines: seq<string>)
    requires forall k :: 0 <= k < |lines| ==> '\n' !in lines[k]
    ensures Lines(Unlines(lines)) == Some(lines)
  {
    if |lines| >= 1 {
      UnlinesIsJoin(lines);
      var text := Unlines(lines);
      assert text[..|text| - 1] == Join(lines, '\n');
      SplitJoin(lines, '\n');
    }
  }
}

=== FILE: utf8.dfy ===
/** Octets, and UTF-8 (RFC 3629) as Python's `str.encode()` applies it. */
module Utf8 {
  import opened Wrappers

  /** One octet. */
  type byte = b: int | 0 <= b < 256

  predicate IsContinuation(b: byte) {
    0x80 <= b < 0xC0
  }

  /** The one to four octets encoding one Unicode scalar value. */
  function EncodeChar(c: char): (r: seq<byte>)
    ensures 1 <= |r| <= 4
  {
    var n := c as int;
    if n < 0x80 then
      [n]
    else if n < 0x800 then
      [0xC0 + n / 64, 0x80 + n % 64]
    else if n < 0x10000 then
      [0xE0 + n / 4096, 0x80 + (n / 64) % 64, 0x80 + n % 64]
    else
      [0xF0 + n / 262144, 0x80 + (n / 4096) % 64, 0x80 + (n / 64) % 64, 0x80 + n % 64]
  }

  /** The UTF-8 encoding of a string, character after character. */
  function Encode(s: string): (r: seq<byte>)
    ensures |s| <= |r| <= 4 * |s|
  {
    if |s| == 0 then [] else EncodeChar(s[0]) + Encode(s[1..])
  }

  /** The scalar value at the start of `bs` and how many octets encode it;
      `None` for an ill-formed sequence (bad lead octet, missing or bad
      continuation octet, overlong form, surrogate or out-of-range value). */
  function DecodeFirst(bs: seq<byte>): (r: Option<(char, nat)>)
    requires |bs| > 0
    ensures r.Some? ==> 1 <= r.value.1 <= |bs|
  {
    var b0: int := bs[0];
    if b0 < 0x80 then
      Some((b0 as char, 1))
    else if 0xC2 <= b0 < 0xE0 then
      if |bs| < 2 || !IsContinuation(bs[1]) then None
      else Some((((b0 - 0xC0) * 64 + (bs[1] as int - 0x80)) as char, 2))
    else if 0xE0 <= b0 < 0xF0 then
      if |bs| < 3 || !IsContinuation(bs[1]) || !IsContinuation(bs[2]) then None
      else
        var v := (b0 - 0xE0) * 4096 + (bs[1] as int - 0x80) * 64 + (bs[2] as int - 0x80);
        if v < 0x800 || 0xD800 <= v < 0xE000 then None else Some((v as char, 3))
    else if 0xF0 <= b0 < 0xF5 then
      if |bs| < 4 || !IsContinuation(bs[1]) || !IsContinuation(bs[2]) || !IsContinuation(bs[3]) then None
      else
        var v := (b0 - 0xF0) * 262144 + (bs[1] as int - 0x80) * 4096 + (bs[2] as int - 0x80) * 64 + (bs[3] as int - 0x80);
        if v < 0x10000 || 0x110000 <= v then None else Some((v as char, 4))
    else
      None
  }

  /** The string a well-formed UTF-8 octet sequence encodes. */
  function Decode(bs: seq<byte>): (r: Option<string>)
    decreases |bs|
  {
    if |bs| == 0 then Some("")
    else
      match DecodeFirst(bs)
      case None => None
      case Some((c, n)) =>
        match Decode(bs[n..])
        case None => None
        case Some(rest) => Some([c] + rest)
  }

  /** Each character's encoding is read back as that character, whatever follows. */
  lemma DecodeFirstEncodeChar(c: char, rest: seq<byte>)
    ensures DecodeFirst(EncodeChar(c) + rest) == Some((c, |EncodeChar(c)|))
  {
    var n := c as int;
    if n < 0x80 {
    } else if n < 0x800 {
      DecodeTwo(c, rest);
    } else if n < 0x10000 {
      DecodeThree(c, rest);
    } else {
      DecodeFour(c, rest);
    }
  }

  lemma DecodeTwo(c: char, rest: seq<byte>)
    requires 0x80 <= c as int < 0x800
    ensures DecodeFirst(EncodeChar(c) + rest) == Some((c, 2))
  {
    var n := c as int;
    var bs := EncodeChar(c) + rest;
    assert bs[0] == 0xC0 + n / 64 && bs[1] == 0x80 + n % 64;
    assert (n / 64) * 64 + n % 64 == n;
  }

  lemma DecodeThree(c: char, rest: seq<byte>)
    requires 0x800 <= c as int < 0x10000
    ensures DecodeFirst(EncodeChar(c) + rest) == Some((c, 3))
  {
    var n := c as int;
    var bs := EncodeChar(c) + rest;
    var hi, mid, lo := n / 4096, (n / 64) % 64, n % 64;
    assert bs[0] == 0xE0 + hi && bs[1] == 0x80 + mid && bs[2] == 0x80 + lo;
    assert n / 64 == hi * 64 + mid;
    assert hi * 4096 + mid * 64 + lo == n;
  }

  lemma DecodeFour(c: char, rest: seq<byte>)
    requires 0x10000 <= c as int
    ensures DecodeFirst(EncodeChar(c) + rest) == Some((c, 4))
  {
    var n := c as int;
    var bs := EncodeChar(c) + rest;
    var top, hi, mid, lo := n / 262144, (n / 4096) % 64, (n / 64) % 64, n % 64;
    assert bs[0] == 0xF0 + top && bs[1] == 0x80 + hi && bs[2] == 0x80 + mid && bs[3] == 0x80 + lo;
    assert n / 4096 == top * 64 + hi;
    assert n / 64 == (n / 4096) * 64 + mid;
    assert top * 262144 + hi * 4096 + mid * 64 + lo == n;
  }

  /** Decoding the UTF-8 encoding of a string gives the string back; in
      particular the encoding is injective. */
  lemma {:induction false} DecodeEncode(s: string)
    ensures Decode(Encode(s)) == Some(s)
    decreases |s|
  {
    if |s| > 0 {
      var head := EncodeChar(s[0]);
      var bs := Encode(s);
      assert bs == head + Encode(s[1..]);
      DecodeFirstEncodeChar(s[0], Encode(s[1..]));
      assert bs[|head|..] == Encode(s[1..]);
      DecodeEncode(s[1..]);
      assert s == [s[0]] + s[1..];
    }
  }

  lemma EncodeInjective(a: string, b: string)
    requires Encode(a) == Encode(b)
    ensures a == b
  {
    DecodeEncode(a);
    DecodeEncode(b);
  }
}

=== FILE: wrappers.dfy ===
/** Failure-carrying result types shared by the model. */
module Wrappers {

  /** A value that may be absent: Python's `None` or a missing match. */
  datatype Option<+T> = None | Some(value: T) {

    predicate IsFailure() {
      None?
    }

    function PropagateFailure<U>(): Option<U>
      requires None?
    {
      None
    }

    function Extract(): T
      requires Some?
    {
      value
    }
  }

  /** Either an accepted value or the reason it was refused. */
  datatype Result<+R, +E> = Success(value: R) | Failure(error: E)
}
